=== FILE: README.md ===
# UMD rendering formatter, modelled in Dafny

This project models the UMD rendering formatter of Angular's ngcc
compatibility compiler (`UmdRenderingFormatter`). The formatter rewrites an
already-transpiled UMD module in place, as a series of text edits. Each
entry point is modelled as a pure function:

- `addImports` puts new dependencies in front of the existing ones in every
  loader branch:
  - CommonJS2 and CommonJS use `require('x')`;
  - AMD uses `'x'`, in a new `[...]` array in front of the factory argument when the `define` call has none;
  - the global branch uses `global.a.b`;
  - the factory parameter list gets the new qualifiers.
- `addExports` appends `exports.X = ...;` lines at the end of the factory
  body. Symbols of other files go through the import manager's namespace
  qualifiers (`i0`, `i1`, ...).
- `addConstants` inserts text at the top of the factory body.
- `addDefinitions` and `addAdjacentStatements` insert text right before the
  `return` of a class's ES5 IIFE.
- `removeDecorators` cuts entries out of `X.decorators = [...]` arrays and
  `X = tslib.__decorate([...], X)` calls. A removed entry takes its comma
  with it. When every entry of an array is removed, the whole statement goes.
- `printStatement` prints a literal variable declaration as ES5
  `var x = lit;`.

The parsed module is abstract (`UmdModel.UmdModule`). The original text is
kept cut at the places the formatter edits. Text inserted at a place sits in
a slot next to it, and removed decorator entries are held in a set.
`UmdModel.Render` puts the text back together the way the edited text buffer
prints it. This is what makes call order matter: a second insertion at the
same place lands after the first.

Files:

- `outcomes.dfy`: `Option` and `Result`.
- `text.dfy`: join, split, replace and prefix helpers.
- `decimal.dfy`: numerals and their parser.
- `umd_module.dfy`: the module datatype and its rendering.
- `global_names.dfy`: the specifier-to-global mapping.
- `module_paths.dfy`: relative module specifiers.
- `import_manager.dfy`: qualifier allocation.
- `umd_imports.dfy`: `addImports`.
- `factory_body_edits.dfy`: `addConstants` and `addExports`.
- `class_iife.dfy`: `addDefinitions` and `addAdjacentStatements`.
- `decorator_removal.dfy`: `removeDecorators`.
- `statement_printer.dfy`: `printStatement`.

The formatter's implementation file is not part of this model. The behaviour
modelled is what the formatter's test suite asserts:
`packages/compiler-cli/ngcc/test/rendering/umd_rendering_formatter_spec.ts`.
The fixture programs it runs on are at lines 75-190. Two points where a
plain-words reading differs from what the tests assert:

- The test names say imports are "appended", but the expected outputs put
  them *before* the existing entries (lines 210, 340). The model prepends.
- A scope `@angular/` maps to the global `ng`, not `angular` (line 296).
  Any other leading `@` is simply dropped.

## Model

| member | source | states |
|---|---|---|
| UmdImports.ReadDependencyText | packages/compiler-cli/ngcc/test/rendering/umd_rendering_formatter_spec.ts:206-254 | the CommonJS `require('x')` and AMD `'x'` forms name the module exactly: the specifier reads back out of them |
| UmdImports.AddImports | packages/compiler-cli/ngcc/test/rendering/umd_rendering_formatter_spec.ts:194-405 | an empty import list leaves the module identical; otherwise every wrapper part gets the new entries in its own form and the parameter list prints with the new qualifiers first, and nothing else in the module changes |
| UmdImports.AddImportsPrintsAsPrepended | packages/compiler-cli/ngcc/test/rendering/umd_rendering_formatter_spec.ts:194-392 | the edited module prints exactly as if every list had the new entries first, in the given order, followed by its original entries unchanged, and an AMD call that had no array as gaining one that holds just the new entries |
| UmdImports.PrependToPartPrintsAsLeading | packages/compiler-cli/ngcc/test/rendering/umd_rendering_formatter_spec.ts:344-392 | every part of the wrapper prints as its reference reading: an existing list with the new entries first, and an AMD `define` call without an array as one holding just the new entries |
| UmdImports.PrependPrintsAsLeadingEntries | packages/compiler-cli/ngcc/test/rendering/umd_rendering_formatter_spec.ts:380-390 | inserting in front of a list prints as the new entries joined by commas, with a comma after them only when the list had entries |
| UmdImports.PrependToEmpty | packages/compiler-cli/ngcc/test/rendering/umd_rendering_formatter_spec.ts:380-390 | a list with no prior entries, such as the empty `define([], factory)` array, becomes exactly the new entries joined by commas, with no comma before or after |
| UmdImports.AmdTwoImportsWithoutArray | packages/compiler-cli/ngcc/test/rendering/umd_rendering_formatter_spec.ts:374-376 | a `define('file', factory)` call with no dependency array gets `['a','b'],` in front of its factory argument |
| UmdImports.EmptyInsertionWouldAddComma | packages/compiler-cli/ngcc/test/rendering/umd_rendering_formatter_spec.ts:394-405 | without the empty-list guard a non-empty list would gain a stray comma, so the guard is what keeps the file unchanged |
| UmdImports.CommonJsTwoImports | packages/compiler-cli/ngcc/test/rendering/umd_rendering_formatter_spec.ts:206-212 | two imports in a CommonJS factory call print as `require('a'),require('b')` followed by `,` and the old arguments |
| UmdImports.ParamsTwoImports | packages/compiler-cli/ngcc/test/rendering/umd_rendering_formatter_spec.ts:337-341 | two imports in the factory parameters print as `i0,i1` followed by `,` and the old parameters |
| UmdImports.GlobalTwoImports | packages/compiler-cli/ngcc/test/rendering/umd_rendering_formatter_spec.ts:269-273 | the global branch gets `global.<path>` entries whatever form its old entries take |
| GlobalNames.GlobalIdentifierBySegments | packages/compiler-cli/ngcc/test/rendering/umd_rendering_formatter_spec.ts:276-301 | the global path is the specifier's `/`-separated segments, each camel-cased, joined by dots, with `@angular/` giving the segment `ng` |
| GlobalNames.AngularScoped | packages/compiler-cli/ngcc/test/rendering/umd_rendering_formatter_spec.ts:296 | a specifier under `@angular/` maps to `ng.` followed by the rest of its path |
| GlobalNames.OtherScoped | packages/compiler-cli/ngcc/test/rendering/umd_rendering_formatter_spec.ts:296 | under any other scope the leading `@` is dropped |
| GlobalNames.CoreGlobal | packages/compiler-cli/ngcc/test/rendering/umd_rendering_formatter_spec.ts:272 | `@angular/core` maps to `global.ng.core` |
| GlobalNames.CommonGlobal | packages/compiler-cli/ngcc/test/rendering/umd_rendering_formatter_spec.ts:272 | `@angular/common` maps to `global.ng.common` |
| GlobalNames.NgrxStoreGlobal | packages/compiler-cli/ngcc/test/rendering/umd_rendering_formatter_spec.ts:284-296 | `@ngrx/store` maps to `global.ngrx.store` |
| GlobalNames.PlatformBrowserDynamicGlobal | packages/compiler-cli/ngcc/test/rendering/umd_rendering_formatter_spec.ts:285-296 | `@angular/platform-browser-dynamic` maps to `global.ng.platformBrowserDynamic` |
| GlobalNames.CommonTestingGlobal | packages/compiler-cli/ngcc/test/rendering/umd_rendering_formatter_spec.ts:288-296 | `@angular/common/testing` maps to `global.ng.common.testing` |
| GlobalNames.AngularFooGlobal | packages/compiler-cli/ngcc/test/rendering/umd_rendering_formatter_spec.ts:289-296 | `@angular-foo/package` maps to `global.angularFoo.package` |
| GlobalNames.CamelCaseHump | packages/compiler-cli/ngcc/test/rendering/umd_rendering_formatter_spec.ts:296 | a hyphen before a lower-case letter disappears and the letter is upper-cased |
| ImportManagement.GenerateNamedImport | packages/compiler-cli/ngcc/test/rendering/umd_rendering_formatter_spec.ts:484-493 | an unknown module is bound to the next fresh qualifier; a known module keeps its qualifier; earlier bindings never change and modules stay distinct |
| ImportManagement.GenerateReuses | packages/compiler-cli/ngcc/test/rendering/umd_rendering_formatter_spec.ts:484-485 | asking twice for the same module gives the same qualifier and binds nothing new |
| ImportManagement.QualifiersDistinct | packages/compiler-cli/ngcc/test/rendering/umd_rendering_formatter_spec.ts:484-486 | distinct modules are reached through distinct qualifiers |
| ImportManagement.QualifierStable | packages/compiler-cli/ngcc/test/rendering/umd_rendering_formatter_spec.ts:484-486 | a binding, once made, survives every later request |
| ImportManagement.QualifierInjective | packages/compiler-cli/ngcc/test/rendering/umd_rendering_formatter_spec.ts:484-486 | different positions give different qualifiers `i<k>` |
| Paths.RelativeSpecifier | packages/compiler-cli/ngcc/test/rendering/umd_rendering_formatter_spec.ts:491-493 | the specifier under which another file is imported starts with `./` |
| Paths.RelativeResolves | packages/compiler-cli/ngcc/test/rendering/umd_rendering_formatter_spec.ts:491-493 | following the relative path from the entry point's directory leads back to the target file |
| Paths.SpecifierBelowEntryDir | packages/compiler-cli/ngcc/test/rendering/umd_rendering_formatter_spec.ts:471-473 | a file under the entry point's directory is named by its path there, without `.js` (`./a`, `./foo/b`) |
| Paths.StripJsAdded | packages/compiler-cli/ngcc/test/rendering/umd_rendering_formatter_spec.ts:469 | stripping the `.js` extension undoes adding it |
| FactoryBodyEdits.ExportStatement | packages/compiler-cli/ngcc/test/rendering/umd_rendering_formatter_spec.ts:484-487 | a symbol of the entry point itself is exported by its bare name; any other goes through the qualifier its module is bound to |
| FactoryBodyEdits.ExportStatements | packages/compiler-cli/ngcc/test/rendering/umd_rendering_formatter_spec.ts:478-489 | one line per export |
| FactoryBodyEdits.ExportStatementsBind | packages/compiler-cli/ngcc/test/rendering/umd_rendering_formatter_spec.ts:478-489 | the lines are in the order of the exports, each uses the qualifier its module is finally bound to, and the import manager only gains bindings and keeps its modules distinct |
| FactoryBodyEdits.LineForStable | packages/compiler-cli/ngcc/test/rendering/umd_rendering_formatter_spec.ts:484-486 | a line stays correct once later exports bind more modules |
| FactoryBodyEdits.AddExports | packages/compiler-cli/ngcc/test/rendering/umd_rendering_formatter_spec.ts:468-489 | the export lines are added after everything inserted there before; the statements, constants and wrapper are untouched |
| FactoryBodyEdits.AddExportsInserts | packages/compiler-cli/ngcc/test/rendering/umd_rendering_formatter_spec.ts:478-489 | the lines land after the last statement, before the whitespace preceding the body's closing brace, and the rest of the text is unchanged |
| FactoryBodyEdits.ExportFromNewModule | packages/compiler-cli/ngcc/test/rendering/umd_rendering_formatter_spec.ts:484-486 | the first export from a module binds it to the next qualifier |
| FactoryBodyEdits.ExportFromKnownModule | packages/compiler-cli/ngcc/test/rendering/umd_rendering_formatter_spec.ts:484-485 | a later export from the same module reuses its qualifier |
| FactoryBodyEdits.ExampleSpecifiers | packages/compiler-cli/ngcc/test/rendering/umd_rendering_formatter_spec.ts:471-474 | `a.js` and `foo/b.js` are other files, named `./a` and `./foo/b`, and the entry point's own file is the same file |
| FactoryBodyEdits.ExportsExample | packages/compiler-cli/ngcc/test/rendering/umd_rendering_formatter_spec.ts:468-493 | the test's four exports give `i0.ComponentA1`, `i0.ComponentA2`, `i1.ComponentB` and a bare `TopLevelComponent` |
| FactoryBodyEdits.AddConstants | packages/compiler-cli/ngcc/test/rendering/umd_rendering_formatter_spec.ts:503-509 | the text prints as before with a newline, the constants and a newline added after the constants inserted earlier, at the top of the body; statements, exports, parameters and wrapper are untouched |
| FactoryBodyEdits.AddConstantsInserts | packages/compiler-cli/ngcc/test/rendering/umd_rendering_formatter_spec.ts:503-509 | the constants land on lines of their own after the first statement's leading whitespace, and the rest of the text is unchanged |
| FactoryBodyEdits.ConstantsBeforeFirstStatement | packages/compiler-cli/ngcc/test/rendering/umd_rendering_formatter_spec.ts:504-509 | the output contains the opening brace, the leading whitespace, the constants on their own line and then the first statement |
| ClassIife.InsertBeforeReturn | packages/compiler-cli/ngcc/test/rendering/umd_rendering_formatter_spec.ts:520-557 | fails with the invalid-syntax message for a non-IIFE class and the no-return message for an IIFE without `return`, and succeeds exactly otherwise; on success the text prints on a line of its own directly in front of the first `return` and its leading whitespace, only the class's own statement changes, and it keeps its name and leading whitespace |
| ClassIife.AddDefinitions | packages/compiler-cli/ngcc/test/rendering/umd_rendering_formatter_spec.ts:520-556 | a class not declared as an IIFE fails with the invalid-syntax message and an IIFE without `return` with the no-return message; otherwise the definitions print on a line of their own directly in front of the `return` and the rest of the text is unchanged |
| ClassIife.AddAdjacentStatements | packages/compiler-cli/ngcc/test/rendering/umd_rendering_formatter_spec.ts:581-597 | succeeds exactly for a class IIFE with a `return`, and then the statements print on a line of their own directly in front of it, with the rest of the text unchanged |
| ClassIife.RenderAroundReturn | packages/compiler-cli/ngcc/test/rendering/umd_rendering_formatter_spec.ts:527-533 | the module's text is exactly the part before the class's `return` followed by the part from it on |
| ClassIife.FromReturnStartsWithReturn | packages/compiler-cli/ngcc/test/rendering/umd_rendering_formatter_spec.ts:531-532 | the part from the cut on starts with the `return` statement |
| ClassIife.DefinitionsThenStatements | packages/compiler-cli/ngcc/test/rendering/umd_rendering_formatter_spec.ts:599-613 | after definitions and then adjacent statements are added, both sit before the `return`, the definitions first |
| ClassIife.FirstReturnAfterInsert | packages/compiler-cli/ngcc/test/rendering/umd_rendering_formatter_spec.ts:599-613 | an insertion keeps the `return` the first one, one place further on |
| ClassIife.NotIifeError | packages/compiler-cli/ngcc/test/rendering/umd_rendering_formatter_spec.ts:536-548 | a class not declared as an IIFE fails with a message naming the class and the file and quoting the declaration |
| ClassIife.NoReturnError | packages/compiler-cli/ngcc/test/rendering/umd_rendering_formatter_spec.ts:550-556 | an IIFE without `return` fails with a message naming the class and the file |
| DecoratorRemoval.RemoveFromContainer | packages/compiler-cli/ngcc/test/rendering/umd_rendering_formatter_spec.ts:617-678 | the whole statement is dropped exactly when every entry of the array is named; otherwise the named entries are marked removed and nothing else changes |
| DecoratorRemoval.RemoveDecorators | packages/compiler-cli/ngcc/test/rendering/umd_rendering_formatter_spec.ts:617-636 | in one call, every named array of every class loses the entries named for it, or its whole statement when all are named; every other statement of a class IIFE, every other statement of the body and the rest of the module stay as they are |
| DecoratorRemoval.CutEntry | packages/compiler-cli/ngcc/test/rendering/umd_rendering_formatter_spec.ts:617-657 | removing one entry of an array with others cuts exactly that entry, its leading whitespace and its following comma |
| DecoratorRemoval.RemoveDecoratorsCutsEntry | packages/compiler-cli/ngcc/test/rendering/umd_rendering_formatter_spec.ts:617-636 | in the module's text, removing one entry of an array with others deletes exactly that entry's span and nothing else |
| DecoratorRemoval.RemoveDecoratorsDropsStatement | packages/compiler-cli/ngcc/test/rendering/umd_rendering_formatter_spec.ts:659-678 | when every entry of an array is named, the module's text loses that whole statement with its leading whitespace and nothing else |
| DecoratorRemoval.FirstOfTwoRemoved | packages/compiler-cli/ngcc/test/rendering/umd_rendering_formatter_spec.ts:681-696 | removing the first of two entries removes its comma with it |
| DecoratorRemoval.LastOfTwoRemoved | packages/compiler-cli/ngcc/test/rendering/umd_rendering_formatter_spec.ts:698-713 | removing a last entry with no comma of its own leaves the comma before it in place |
| DecoratorRemoval.SoleDecoratorRemoved | packages/compiler-cli/ngcc/test/rendering/umd_rendering_formatter_spec.ts:716-733 | when a class's only decorator is removed, its decorator statement disappears and the constructor function is followed directly by the `return` |
| DecoratorRemoval.SoleDecoratorThenDefinitions | packages/compiler-cli/ngcc/test/rendering/umd_rendering_formatter_spec.ts:659-678 | after a class's only decorator is removed and definitions are added, the constructor function is followed by the definitions and then directly by the `return` |
| DecoratorRemoval.RemovalsCompose | packages/compiler-cli/ngcc/test/rendering/umd_rendering_formatter_spec.ts:617-678 | two removals that together name fewer than all entries equal one removal naming both sets |
| DecoratorRemoval.RemovalsNamingAllDoNotCompose | packages/compiler-cli/ngcc/test/rendering/umd_rendering_formatter_spec.ts:659-678 | two removals that together name every entry leave an empty array in place, while one removal naming them all drops the statement |
| DecoratorRemoval.CountIsAll | packages/compiler-cli/ngcc/test/rendering/umd_rendering_formatter_spec.ts:659-678 | a set of positions of an array names as many entries as the array has exactly when it names all of them |
| StatementPrinter.PrintStatement | packages/compiler-cli/ngcc/test/rendering/umd_rendering_formatter_spec.ts:736-750 | the output starts `var <name> = ` and ends with `;` |
| StatementPrinter.PrintParseRoundTrip | packages/compiler-cli/ngcc/test/rendering/umd_rendering_formatter_spec.ts:736-750 | reading the printed declaration back gives its name and value, so the printer loses only the modifiers |
| StatementPrinter.LiteralRoundTrip | packages/compiler-cli/ngcc/test/rendering/umd_rendering_formatter_spec.ts:740-750 | number, boolean and double-quoted string literals are printed so that they read back as the same literal |
| StatementPrinter.UnescapeEscape | packages/compiler-cli/ngcc/test/rendering/umd_rendering_formatter_spec.ts:750 | escaping a string for double quotes is undone by reading the escapes back |
| StatementPrinter.EscapeHasNoBareQuote | packages/compiler-cli/ngcc/test/rendering/umd_rendering_formatter_spec.ts:750 | an escaped string holds no newline and no `"` that is not preceded by a backslash |
| StatementPrinter.ModifiersDropped | packages/compiler-cli/ngcc/test/rendering/umd_rendering_formatter_spec.ts:740-745 | the `static` and other modifiers never reach the output |
| StatementPrinter.PrintNumberExample | packages/compiler-cli/ngcc/test/rendering/umd_rendering_formatter_spec.ts:740-750 | the number declaration of the test, modifiers and all, prints as `var foo = 42;` |
| StatementPrinter.PrintBooleanExample | packages/compiler-cli/ngcc/test/rendering/umd_rendering_formatter_spec.ts:740-750 | a boolean declaration prints as `var bar = true;` |
| StatementPrinter.PrintStringExample | packages/compiler-cli/ngcc/test/rendering/umd_rendering_formatter_spec.ts:740-750 | a string declaration prints with the string in double quotes, `var baz = "qux";` |
| Decimal.IntRoundTrip | packages/compiler-cli/ngcc/test/rendering/umd_rendering_formatter_spec.ts:744 | a printed integer reads back as itself |

## Left out

- TypeScript parsing and reflection are left out. The UMD reflection host, decoration analysis and declaration lookup become the abstract, already-parsed `UmdModule`, `CompiledClass` and `ContainerRef` values. The code that finds the anchors is not part of this model.
- The text buffer's internals and source maps are left out. Only the buffer's printed text is modelled, as slots and removal marks resolved by `Render`.
- A file that is not a UMD module is left out. The model always starts from a parsed UMD module.
- The wrapper's exact surface text is left out. Each loader branch is either a dependency list between verbatim text or, for an AMD `define` call with no dependency array, the point in front of its factory argument. So the CommonJS2, CommonJS, AMD, plain global and `global = global || self` forms differ only in that verbatim text.
- Of the import manager, only qualifier allocation is modelled. Each distinct module gets the next `i<k>`, and the same module reuses its qualifier.
- GlobalNames.GlobalIdentifier models only the rewrites the tests show: the `@angular/` scope, a leading `@`, `/` and hyphens. Any underscore or leading-character rules are not evidenced and are left out.
- GlobalNames.ToUpper upper-cases only the ASCII letters `a`-`z`. The camel-casing of global names uses full Unicode upper-casing, and no test uses a letter outside ASCII.
- Paths.StripJs strips only the `.js` extension, the one the tests use.
- FactoryBodyEdits.AddConstants has no guard for empty text, since the tests show none. The test at lines 512-517 is a placeholder with no assertion.
- DecoratorRemoval.RemoveFromContainer removes an entry's leading whitespace, its text and the comma right after it. Whitespace beyond that is not evidenced, so the exact whitespace the buffer removes between entries may differ.
- DecoratorRemoval.RemoveDecorators ignores positions beyond the end of an array.
- The `return X = tslib.__decorate(...)` and `D = D_1 = tslib.__decorate(...)` forms are not modelled beyond the array itself. The tests remove only from the plain form.
- Two sequential calls to `addImports` on a list that was empty print their entries without a comma between them, as the insertions are written. No test calls it twice. Likewise, a second call on an AMD `define` call that had no array writes a second array.
- StatementPrinter.PrintLiteral covers only integers, booleans and strings. Its escaping covers only the backslash, the double quote and the newline. Floating-point numbers, other escapes and other expression kinds belong to the full translator, which is not part of this model.
- StatementPrinter.PrintParseRoundTrip requires a name that is non-empty and has no blank in it. The reader finds the name's end by looking for the first blank.
- The fixture helper that builds the test programs' wrapper text (`createUmdModule`) is not part of this model. Neither are the global names it writes for the fixture dependencies.

=== FILE: class_iife.dfy ===
/** `addDefinitions` and `addAdjacentStatements`: text inserted on its own
    line directly in front of the `return` statement of a class's ES5 IIFE,
    after everything inserted there before. */
module ClassIife {
  import opened Outcomes
  import opened Text
  import opened UmdModel

  /** A class the analysis compiled: its name and the body statement that
      declares it. */
  datatype CompiledClass = CompiledClass(name: string, declaration: nat)

  /** The error raised for a class not declared as an ES5 IIFE. */
  function InvalidSyntaxMessage(name: string, path: string, declaration: string): string
  {
    "Compiled class \"" + name + "\" in \"" + path + "\" does not have a valid syntax.\n"
      + "Expected an ES5 IIFE wrapped function. But got:\n" + declaration
  }

  /** The error raised for a class IIFE without a `return`. */
  function NoReturnMessage(name: string, path: string): string
  {
    "Compiled class wrapper IIFE does not have a return statement: " + name + " in " + path
  }

  /** The position of the first `return` among the IIFE's statements. */
  function FirstReturn(inner: seq<Inner>): (r: Option<nat>)
    ensures r.Some? ==> r.value < |inner| && inner[r.value].Return?
    ensures r.Some? ==> forall i :: 0 <= i < r.value ==> !inner[i].Return?
    ensures r.None? ==> forall i :: 0 <= i < |inner| ==> !inner[i].Return?
  {
    if |inner| == 0 then None
    else if inner[0].Return? then Some(0)
    else match FirstReturn(inner[1..])
      case None => None
      case Some(j) => Some(j + 1)
  }

  /** `inner` with `text` inserted as statement `j`. */
  function InsertAt(inner: seq<Inner>, j: nat, text: string): (r: seq<Inner>)
    requires j <= |inner|
    ensures |r| == |inner| + 1 && r[j] == Inserted(text)
    ensures r[..j] == inner[..j] && r[j + 1..] == inner[j..]
  {
    inner[..j] + [Inserted(text)] + inner[j..]
  }

  /** The shared insertion of both operations. Fails, naming the class and
      the file, when the declaration is not an IIFE or the IIFE has no
      `return`; otherwise the text appears on a line of its own directly in
      front of the first `return`, and nothing else changes. */
  function InsertBeforeReturn(m: UmdModule, c: CompiledClass, text: string): (r: Result<UmdModule>)
    requires IsClassAt(m, c.declaration)
    ensures var decl := m.body.stmts[c.declaration];
      && (decl.shape.NotIife? ==> r == Err(InvalidSyntaxMessage(c.name, m.path, decl.shape.text)))
      && (decl.shape.Iife? && FirstReturn(decl.shape.inner).None? ==> r == Err(NoReturnMessage(c.name, m.path)))
      && (r.Ok? <==> decl.shape.Iife? && FirstReturn(decl.shape.inner).Some?)
    ensures r.Ok? ==>
      Render(r.value) == BeforeReturn(m, c.declaration) + "\n" + text + FromReturn(m, c.declaration)
    ensures r.Ok? ==> |r.value.body.stmts| == |m.body.stmts|
    ensures r.Ok? ==>
      var decl := m.body.stmts[c.declaration];
      var decl' := r.value.body.stmts[c.declaration];
      && r.value == m.(body := m.body.(stmts := m.body.stmts[c.declaration := decl']))
      && decl'.ClassDecl? && decl'.lead == decl.lead && decl'.name == decl.name
  {
    var decl := m.body.stmts[c.declaration];
    match decl.shape
    case NotIife(declaration) => Err(InvalidSyntaxMessage(c.name, m.path, declaration))
    case Iife(open, inner, close) =>
      match FirstReturn(inner)
      case None => Err(NoReturnMessage(c.name, m.path))
      case Some(j) =>
        var cls := ClassDecl(decl.lead, decl.name, Iife(open, InsertAt(inner, j, "\n" + text), close));
        InsertedRenders(m, c.declaration, "\n" + text);
        Assoc(BeforeReturn(m, c.declaration), "\n", text, FromReturn(m, c.declaration));
        Ok(m.(body := m.body.(stmts := m.body.stmts[c.declaration := cls])))
  }

  /** `addDefinitions`: fails with the invalid-syntax message for a class
      not declared as an IIFE and with the no-return message for an IIFE
      without `return`; otherwise the definitions appear on a line of their
      own in front of the `return`. */
  function AddDefinitions(m: UmdModule, c: CompiledClass, definitions: string): (r: Result<UmdModule>)
    requires IsClassAt(m, c.declaration)
    ensures var shape := m.body.stmts[c.declaration].shape;
      && (shape.NotIife? ==> r == Err(InvalidSyntaxMessage(c.name, m.path, shape.text)))
      && (shape.Iife? && FirstReturn(shape.inner).None? ==> r == Err(NoReturnMessage(c.name, m.path)))
    ensures HasIifeReturn(m, c.declaration) ==>
      r.Ok? && Render(r.value) == BeforeReturn(m, c.declaration) + "\n" + definitions + FromReturn(m, c.declaration)
  {
    InsertBeforeReturn(m, c, definitions)
  }

  /** `addAdjacentStatements`: the same place as the definitions, so that
      statements added after the definitions follow them. Succeeds exactly
      for a class IIFE with a `return`. */
  function AddAdjacentStatements(m: UmdModule, c: CompiledClass, statements: string): (r: Result<UmdModule>)
    requires IsClassAt(m, c.declaration)
    ensures r.Ok? <==> HasIifeReturn(m, c.declaration)
    ensures r.Ok? ==>
      Render(r.value) == BeforeReturn(m, c.declaration) + "\n" + statements + FromReturn(m, c.declaration)
  {
    InsertBeforeReturn(m, c, statements)
  }

  /** A class declared as an IIFE with a `return`. */
  predicate HasIifeReturn(m: UmdModule, k: nat)
  {
    IsClassAt(m, k) && m.body.stmts[k].shape.Iife? && FirstReturn(m.body.stmts[k].shape.inner).Some?
  }

  /** The module's text before the `return` of the class at `k`. */
  function BeforeReturn(m: UmdModule, k: nat): string
    requires HasIifeReturn(m, k)
  {
    var shape := m.body.stmts[k].shape;
    ModuleBefore(m, k) + shape.open + RenderInners(shape.inner[..FirstReturn(shape.inner).value])
  }

  /** The module's text from the `return` of the class at `k` on. */
  function FromReturn(m: UmdModule, k: nat): string
    requires HasIifeReturn(m, k)
  {
    var shape := m.body.stmts[k].shape;
    RenderInners(shape.inner[FirstReturn(shape.inner).value..]) + shape.close + ModuleAfter(m, k)
  }

  /** An IIFE's statements split at position `j`. */
  lemma InnersAround(inner: seq<Inner>, j: nat)
    requires j <= |inner|
    ensures RenderInners(inner) == RenderInners(inner[..j]) + RenderInners(inner[j..])
  {
    assert inner == inner[..j] + inner[j..];
    RenderInnersAppend(inner[..j], inner[j..]);
  }

  /** The module's text is cut at the class's `return`. */
  lemma RenderAroundReturn(m: UmdModule, k: nat)
    requires HasIifeReturn(m, k)
    ensures Render(m) == BeforeReturn(m, k) + FromReturn(m, k)
  {
    var shape := m.body.stmts[k].shape;
    var inner := shape.inner;
    var j := FirstReturn(inner).value;
    ModuleAroundStmt(m, k);
    InnersAround(inner, j);
    var a := RenderInners(inner[..j]);
    var b := RenderInners(inner[j..]);
    assert BeforeReturn(m, k) == ModuleBefore(m, k) + shape.open + a;
    assert FromReturn(m, k) == b + shape.close + ModuleAfter(m, k);
    assert Core(m.body.stmts[k]) == shape.open + (a + b) + shape.close;
    RegroupCut(ModuleBefore(m, k), shape.open, a, b, shape.close, ModuleAfter(m, k));
  }

  /** The part from the cut on starts with the `return` statement itself. */
  lemma FromReturnStartsWithReturn(m: UmdModule, k: nat)
    requires HasIifeReturn(m, k)
    ensures var shape := m.body.stmts[k].shape;
            StartsWith(FromReturn(m, k), RenderInner(shape.inner[FirstReturn(shape.inner).value]))
  {
    var shape := m.body.stmts[k].shape;
    var inner := shape.inner;
    var j := FirstReturn(inner).value;
    InnersFrom(inner, j);
    var ret := RenderInner(inner[j]);
    var rest := RenderInners(inner[j + 1..]);
    assert FromReturn(m, k) == ret + rest + shape.close + ModuleAfter(m, k);
    assert FromReturn(m, k) == ret + (rest + shape.close + ModuleAfter(m, k));
    PrefixOfConcat(ret, rest + shape.close + ModuleAfter(m, k));
  }

  lemma InnersFrom(inner: seq<Inner>, j: nat)
    requires j < |inner|
    ensures RenderInners(inner[j..]) == RenderInner(inner[j]) + RenderInners(inner[j + 1..])
  {
    assert inner[j..][1..] == inner[j + 1..];
  }

  lemma PrefixOfConcat(a: string, b: string)
    ensures StartsWith(a + b, a)
  {
    assert (a + b)[..|a|] == a;
  }

  /** The statements of an IIFE with `text` inserted at `j` print as the
      statements before `j`, the text, and the statements from `j` on. */
  lemma InsertAtRenders(inner: seq<Inner>, j: nat, text: string)
    requires j <= |inner|
    ensures RenderInners(InsertAt(inner, j, text)) == RenderInners(inner[..j]) + text + RenderInners(inner[j..])
  {
    RenderInnersAppend(inner[..j] + [Inserted(text)], inner[j..]);
    RenderInnersAppend(inner[..j], [Inserted(text)]);
    assert RenderInners([Inserted(text)]) == text;
  }

  /** The module with `text` inserted just in front of the `return` of the
      class at `k` prints as the text before the `return`, `text`, and the
      text from the `return` on. */
  lemma InsertedRenders(m: UmdModule, k: nat, text: string)
    requires HasIifeReturn(m, k)
    ensures var decl := m.body.stmts[k];
            var j := FirstReturn(decl.shape.inner).value;
            var decl' := ClassDecl(decl.lead, decl.name, decl.shape.(inner := InsertAt(decl.shape.inner, j, text)));
            Render(m.(body := m.body.(stmts := m.body.stmts[k := decl'])))
              == BeforeReturn(m, k) + text + FromReturn(m, k)
  {
    var decl := m.body.stmts[k];
    var inner := decl.shape.inner;
    var j := FirstReturn(inner).value;
    var decl' := ClassDecl(decl.lead, decl.name, decl.shape.(inner := InsertAt(inner, j, text)));
    ModuleAroundReplaced(m, k, decl');
    var a := RenderInners(inner[..j]);
    var b := RenderInners(inner[j..]);
    InsertedCore(decl, j, text);
    assert BeforeReturn(m, k) == ModuleBefore(m, k) + decl.shape.open + a;
    assert FromReturn(m, k) == b + decl.shape.close + ModuleAfter(m, k);
    RegroupInserted(ModuleBefore(m, k), decl.shape.open, a, text, b, decl.shape.close, ModuleAfter(m, k));
  }

  /** A class declaration with text inserted among its statements. */
  lemma InsertedCore(decl: Stmt, j: nat, text: string)
    requires decl.ClassDecl? && decl.shape.Iife? && j <= |decl.shape.inner|
    ensures var inner := decl.shape.inner;
            Core(ClassDecl(decl.lead, decl.name, decl.shape.(inner := InsertAt(inner, j, text))))
              == decl.shape.open + (RenderInners(inner[..j]) + text + RenderInners(inner[j..])) + decl.shape.close
  {
    InsertAtRenders(decl.shape.inner, j, text);
  }

  /** After the definitions and then the adjacent statements are added to
      the same class, both sit in front of its `return`, the definitions
      first. */
  lemma DefinitionsThenStatements(m: UmdModule, c: CompiledClass, definitions: string, statements: string)
    requires HasIifeReturn(m, c.declaration)
    ensures AddDefinitions(m, c, definitions).Ok?
    ensures HasIifeReturn(AddDefinitions(m, c, definitions).value, c.declaration)
    ensures var m1 := AddDefinitions(m, c, definitions).value;
            var r := AddAdjacentStatements(m1, c, statements);
            r.Ok? && Render(r.value)
              == BeforeReturn(m, c.declaration) + "\n" + definitions + "\n" + statements + FromReturn(m, c.declaration)
  {
    var k := c.declaration;
    var decl := m.body.stmts[k];
    var inner := decl.shape.inner;
    var j := FirstReturn(inner).value;
    var m1 := AddDefinitions(m, c, definitions).value;
    var inner1 := InsertAt(inner, j, "\n" + definitions);
    var decl1 := ClassDecl(decl.lead, decl.name, decl.shape.(inner := inner1));
    assert m1 == m.(body := m.body.(stmts := m.body.stmts[k := decl1]));
    FirstReturnAfterInsert(inner, j, "\n" + definitions);
    assert HasIifeReturn(m1, k);
    BodyAroundReplaced(m.body, k, decl1);
    assert ModuleBefore(m1, k) == ModuleBefore(m, k);
    assert ModuleAfter(m1, k) == ModuleAfter(m, k);
    BeforeReturnAfterInsert(m, m1, k, definitions);
    FromReturnAfterInsert(m, m1, k, definitions);
  }

  /** Text inserted in front of the `return` joins the part before it. */
  lemma BeforeReturnAfterInsert(m: UmdModule, m1: UmdModule, k: nat, text: string)
    requires HasIifeReturn(m, k) && HasIifeReturn(m1, k)
    requires ModuleBefore(m1, k) == ModuleBefore(m, k)
    requires var shape := m.body.stmts[k].shape;
             m1.body.stmts[k].shape
               == shape.(inner := InsertAt(shape.inner, FirstReturn(shape.inner).value, "\n" + text))
    ensures BeforeReturn(m1, k) == BeforeReturn(m, k) + "\n" + text
  {
    var shape := m.body.stmts[k].shape;
    var j := FirstReturn(shape.inner).value;
    var inner1 := InsertAt(shape.inner, j, "\n" + text);
    FirstReturnAfterInsert(shape.inner, j, "\n" + text);
    assert inner1[..j + 1] == shape.inner[..j] + [Inserted("\n" + text)];
    RenderInnersAppend(shape.inner[..j], [Inserted("\n" + text)]);
    assert RenderInners([Inserted("\n" + text)]) == "\n" + text;
    var a := RenderInners(shape.inner[..j]);
    assert BeforeReturn(m1, k) == ModuleBefore(m, k) + shape.open + (a + ("\n" + text));
    assert BeforeReturn(m, k) == ModuleBefore(m, k) + shape.open + a;
    Tack(ModuleBefore(m, k) + shape.open, a, "\n", text);
  }

  /** Text inserted in front of the `return` leaves the part from the
      `return` on alone. */
  lemma FromReturnAfterInsert(m: UmdModule, m1: UmdModule, k: nat, text: string)
    requires HasIifeReturn(m, k) && HasIifeReturn(m1, k)
    requires ModuleAfter(m1, k) == ModuleAfter(m, k)
    requires var shape := m.body.stmts[k].shape;
             m1.body.stmts[k].shape
               == shape.(inner := InsertAt(shape.inner, FirstReturn(shape.inner).value, "\n" + text))
    ensures FromReturn(m1, k) == FromReturn(m, k)
  {
    var shape := m.body.stmts[k].shape;
    var j := FirstReturn(shape.inner).value;
    var inner1 := InsertAt(shape.inner, j, "\n" + text);
    FirstReturnAfterInsert(shape.inner, j, "\n" + text);
    assert inner1[j + 1..] == shape.inner[j..];
  }

  /** Inserting in front of the first `return` keeps it the first `return`,
      one place further on. */
  lemma FirstReturnAfterInsert(inner: seq<Inner>, j: nat, text: string)
    requires FirstReturn(inner) == Some(j)
    ensures FirstReturn(InsertAt(inner, j, text)) == Some(j + 1)
  {
    var r := InsertAt(inner, j, text);
    FirstReturnIs(r, j + 1);
  }

  /** `FirstReturn` finds the first `return`. */
  lemma {:induction false} FirstReturnIs(inner: seq<Inner>, j: nat)
    requires j < |inner| && inner[j].Return?
    requires forall i :: 0 <= i < j ==> !inner[i].Return?
    ensures FirstReturn(inner) == Some(j)
  {
    if j > 0 {
      FirstReturnIs(inner[1..], j - 1);
    }
  }

  /** The error for a class declared without an IIFE quotes the declaration. */
  lemma NotIifeError(m: UmdModule, c: CompiledClass, text: string, lead: string, declaration: string)
    requires c.declaration < |m.body.stmts|
    requires m.body.stmts[c.declaration] == ClassDecl(lead, c.name, NotIife(declaration))
    ensures AddDefinitions(m, c, text)
      == Err("Compiled class \"" + c.name + "\" in \"" + m.path + "\" does not have a valid syntax.\n"
             + "Expected an ES5 IIFE wrapped function. But got:\n" + declaration)
  {
  }

  /** The error for an IIFE that never returns the class. */
  lemma NoReturnError(m: UmdModule, c: CompiledClass, text: string, lead: string,
                      open: string, inner: seq<Inner>, close: string)
    requires c.declaration < |m.body.stmts|
    requires m.body.stmts[c.declaration] == ClassDecl(lead, c.name, Iife(open, inner, close))
    requires forall i :: 0 <= i < |inner| ==> !inner[i].Return?
    ensures AddDefinitions(m, c, text)
      == Err("Compiled class wrapper IIFE does not have a return statement: " + c.name + " in " + m.path)
  {
  }
}

=== FILE: decimal.dfy ===
/** Decimal rendering of integers, used for the generated import qualifiers
    (`i0`, `i1`, ...) and for printing numeric literals, together with the
    parser that inverts it. */
module Decimal {
  import opened Outcomes

  predicate IsDigit(c: char)
  {
    '0' <= c <= '9'
  }

  predicate AllDigits(s: string)
  {
    forall i :: 0 <= i < |s| ==> IsDigit(s[i])
  }

  function DigitChar(d: nat): (c: char)
    requires d < 10
    ensures IsDigit(c)
  {
    ('0' as int + d) as char
  }

  function DigitValue(c: char): (d: nat)
    requires IsDigit(c)
    ensures d < 10 && DigitChar(d) == c
  {
    c as int - '0' as int
  }

  /** The shortest decimal numeral of `n` (no leading zeros). */
  function NatToString(n: nat): (r: string)
    ensures |r| > 0 && AllDigits(r)
    ensures |r| > 1 ==> r[0] != '0'
  {
    if n < 10 then [DigitChar(n)] else NatToString(n / 10) + [DigitChar(n % 10)]
  }

  /** The value of a non-empty numeral. */
  function ParseNat(s: string): nat
    requires |s| > 0 && AllDigits(s)
  {
    if |s| == 1 then DigitValue(s[0])
    else 10 * ParseNat(s[..|s| - 1]) + DigitValue(s[|s| - 1])
  }

  /** Printing then parsing a natural number gives it back. */
  lemma {:induction false} ParseNatToString(n: nat)
    ensures ParseNat(NatToString(n)) == n
  {
    if n >= 10 {
      var s := NatToString(n);
      assert s[..|s| - 1] == NatToString(n / 10);
      ParseNatToString(n / 10);
    }
  }

  /** Different numbers have different numerals. */
  lemma NatToStringInjective(a: nat, b: nat)
    requires NatToString(a) == NatToString(b)
    ensures a == b
  {
    ParseNatToString(a);
    ParseNatToString(b);
  }

  /** The numeral of an integer, with a leading `-` when it is negative. */
  function IntToString(n: int): (r: string)
    ensures |r| > 0
    ensures n >= 0 <==> AllDigits(r)
    ensures n < 0 <==> r[0] == '-'
  {
    if n < 0 then
      var r := "-" + NatToString(-n);
      assert !IsDigit(r[0]);
      r
    else NatToString(n)
  }

  /** Reads an optionally negative numeral; anything else is rejected. */
  function ParseInt(s: string): Option<int>
  {
    if |s| > 0 && AllDigits(s) then Some(ParseNat(s))
    else if |s| > 1 && s[0] == '-' && AllDigits(s[1..]) then
      var v: int := 0 - (ParseNat(s[1..]) as int);
      Some(v)
    else None
  }

  /** Printing then parsing an integer gives it back. */
  lemma IntRoundTrip(n: int)
    ensures ParseInt(IntToString(n)) == Some(n)
  {
    if n < 0 {
      var s := IntToString(n);
      assert s[1..] == NatToString(-n);
      ParseNatToString(-n);
    } else {
      ParseNatToString(n);
    }
  }
}

=== FILE: decorator_removal.dfy ===
/** `removeDecorators`: cuts the named entries out of decorator arrays, in
    both the `X.decorators = [...]` and the `X = tslib.__decorate([...], X)`
    form. An entry goes together with the comma that follows it; when every
    entry of an array is named, the whole statement holding the array goes
    instead. */
module DecoratorRemoval {
  import opened Outcomes
  import opened Text
  import opened UmdModel
  import opened ClassIife

  /** A decorator array: the body statement declaring the class and the
      position of the array's statement inside the class's IIFE. */
  datatype ContainerRef = ContainerRef(statement: nat, inner: nat)

  /** The named positions that are entries of the array. */
  function Named(doomed: set<nat>, n: nat): (r: set<nat>)
    ensures forall i :: i in r <==> i in doomed && i < n
  {
    set i | i in doomed && i < n
  }

  /** All positions of an array of `n` entries. */
  function Positions(n: nat): (r: set<nat>)
    ensures forall i: nat :: i in r <==> i < n
    ensures |r| == n
  {
    if n == 0 then {}
    else
      var r := Positions(n - 1) + {n - 1};
      assert n - 1 !in Positions(n - 1);
      r
  }

  /** A set of positions below `n` holds `n` of them exactly when it holds all
      of them. */
  lemma CountIsAll(s: set<nat>, n: nat)
    requires forall i :: i in s ==> i < n
    ensures |s| == n <==> NamesAll(s, n)
  {
    var all := Positions(n);
    if s != all {
      var x :| x in all && x !in s;
      SubsetCount(s, all - {x});
    } else {
      assert NamesAll(s, n);
    }
  }

  lemma {:induction false} SubsetCount(s: set<nat>, t: set<nat>)
    requires s <= t
    ensures |s| <= |t|
  {
    if s != {} {
      var x :| x in s;
      SubsetCount(s - {x}, t - {x});
    }
  }

  /** Every position of an array of `n` entries is named. */
  predicate NamesAll(doomed: set<nat>, n: nat)
  {
    forall i: nat :: i < n ==> i in doomed
  }

  /** Cuts the entries at the `doomed` positions out of one array. When as
      many entries are named as the array has, the array's statement is
      dropped as a whole; otherwise each named entry is cut with its comma. */
  function RemoveFromContainer(c: Container, doomed: set<nat>): (r: Container)
    ensures r.head == c.head && r.entries == c.entries
    ensures r.trailingComma == c.trailingComma && r.close == c.close
    ensures r.dropped <==> c.dropped || NamesAll(doomed, |c.entries|)
    ensures NamesAll(doomed, |c.entries|) ==> r.removed == c.removed
    ensures !NamesAll(doomed, |c.entries|) ==> r.removed == c.removed + Named(doomed, |c.entries|)
  {
    var named := Named(doomed, |c.entries|);
    CountIsAll(named, |c.entries|);
    if |named| == |c.entries| then c.(dropped := true)
    else c.(removed := c.removed + named)
  }

  /** The decorator statement `s` of the class at body statement `k`, with
      the entries named for it removed. */
  function RemoveInInner(s: Inner, ref: ContainerRef, doomed: map<ContainerRef, set<nat>>): Inner
  {
    if s.Decorators? && ref in doomed then Decorators(s.lead, RemoveFromContainer(s.container, doomed[ref]))
    else s
  }

  function RemoveInStmt(s: Stmt, k: nat, doomed: map<ContainerRef, set<nat>>): (r: Stmt)
    ensures Lead(r) == Lead(s)
  {
    match s
    case ClassDecl(lead, name, Iife(open, inner, close)) =>
      ClassDecl(lead, name, Iife(open,
        seq(|inner|, j requires 0 <= j < |inner| => RemoveInInner(inner[j], ContainerRef(k, j), doomed)),
        close))
    case _ => s
  }

  /** The body statement `k` declares a class as an IIFE. */
  predicate IifeAt(m: UmdModule, k: nat)
  {
    k < |m.body.stmts| && m.body.stmts[k].ClassDecl? && m.body.stmts[k].shape.Iife?
  }

  /** The statements of the class IIFE at body statement `k`. */
  function InnersAt(m: UmdModule, k: nat): seq<Inner>
    requires IifeAt(m, k)
  {
    m.body.stmts[k].shape.inner
  }

  /** `removeDecorators`: every array named in `doomed` loses the entries
      named for it (or its whole statement, when all are named); every other
      statement, inside a class IIFE or not, is left as it is. */
  function RemoveDecorators(m: UmdModule, doomed: map<ContainerRef, set<nat>>): (r: UmdModule)
    ensures r.path == m.path && r.wrapper == m.wrapper && r.params == m.params
    ensures r.afterParams == m.afterParams && r.tail == m.tail
    ensures r.body.closing == m.body.closing && r.body.constants == m.body.constants
    ensures r.body.exports == m.body.exports
    ensures |r.body.stmts| == |m.body.stmts|
    ensures forall k :: 0 <= k < |m.body.stmts| ==> Lead(r.body.stmts[k]) == Lead(m.body.stmts[k])
    ensures forall k :: 0 <= k < |m.body.stmts| && (forall j :: ContainerRef(k, j) !in doomed)
              ==> r.body.stmts[k] == m.body.stmts[k]
    ensures forall k :: 0 <= k < |m.body.stmts| && !IifeAt(m, k) ==> r.body.stmts[k] == m.body.stmts[k]
    ensures forall k: nat :: IifeAt(m, k) ==>
              && IifeAt(r, k)
              && r.body.stmts[k].name == m.body.stmts[k].name
              && r.body.stmts[k].shape.open == m.body.stmts[k].shape.open
              && r.body.stmts[k].shape.close == m.body.stmts[k].shape.close
              && |InnersAt(r, k)| == |InnersAt(m, k)|
    ensures forall k: nat, j :: IifeAt(m, k) && 0 <= j < |InnersAt(m, k)| ==>
              var s := InnersAt(m, k)[j];
              && (s.Decorators? && ContainerRef(k, j) in doomed ==>
                    InnersAt(r, k)[j] == Decorators(s.lead, RemoveFromContainer(s.container, doomed[ContainerRef(k, j)])))
              && (!(s.Decorators? && ContainerRef(k, j) in doomed) ==> InnersAt(r, k)[j] == s)
  {
    var stmts := m.body.stmts;
    var r := m.(body := m.body.(stmts := seq(|stmts|, k requires 0 <= k < |stmts| => RemoveInStmt(stmts[k], k, doomed))));
    assert forall k :: 0 <= k < |stmts| && (forall j :: ContainerRef(k, j) !in doomed) ==> r.body.stmts[k] == stmts[k] by {
      forall k | 0 <= k < |stmts| && (forall j :: ContainerRef(k, j) !in doomed)
        ensures r.body.stmts[k] == stmts[k]
      {
        if stmts[k].ClassDecl? && stmts[k].shape.Iife? {
          var inner := stmts[k].shape.inner;
          assert r.body.stmts[k].shape.inner == inner;
        }
      }
    }
    forall k: nat | IifeAt(m, k)
      ensures IifeAt(r, k) && |InnersAt(r, k)| == |InnersAt(m, k)|
    {
      assert r.body.stmts[k] == RemoveInStmt(stmts[k], k, doomed);
    }
    forall k: nat, j | IifeAt(m, k) && 0 <= j < |InnersAt(m, k)|
      ensures InnersAt(r, k)[j] == RemoveInInner(InnersAt(m, k)[j], ContainerRef(k, j), doomed)
    {
      assert r.body.stmts[k] == RemoveInStmt(stmts[k], k, doomed);
    }
    r
  }

  /** The entries from position `lo` up to `hi`, leaving out the removed
      ones. */
  function EntriesBetween(c: Container, lo: nat, hi: nat): string
    requires lo <= hi <= |c.entries|
    decreases hi - lo
  {
    if lo == hi then "" else (if lo in c.removed then "" else EntrySpan(c, lo)) + EntriesBetween(c, lo + 1, hi)
  }

  lemma {:induction false} EntriesSplit(c: Container, lo: nat, mid: nat)
    requires lo <= mid <= |c.entries|
    ensures RenderEntriesFrom(c, lo) == EntriesBetween(c, lo, mid) + RenderEntriesFrom(c, mid)
    decreases mid - lo
  {
    if lo < mid {
      EntriesSplit(c, lo + 1, mid);
    }
  }

  /** Two arrays that differ only in what was removed outside `lo..hi` print
      alike there. */
  lemma {:induction false} BetweenAgree(c: Container, d: Container, lo: nat, hi: nat)
    requires c.entries == d.entries && c.trailingComma == d.trailingComma
    requires lo <= hi <= |c.entries|
    requires forall i :: lo <= i < hi ==> (i in c.removed <==> i in d.removed)
    ensures EntriesBetween(c, lo, hi) == EntriesBetween(d, lo, hi)
    decreases hi - lo
  {
    if lo < hi {
      BetweenAgree(c, d, lo + 1, hi);
    }
  }

  lemma {:induction false} FromAgree(c: Container, d: Container, lo: nat)
    requires c.entries == d.entries && c.trailingComma == d.trailingComma
    requires lo <= |c.entries|
    requires forall i :: lo <= i < |c.entries| ==> (i in c.removed <==> i in d.removed)
    ensures RenderEntriesFrom(c, lo) == RenderEntriesFrom(d, lo)
    decreases |c.entries| - lo
  {
    if lo < |c.entries| {
      FromAgree(c, d, lo + 1);
    }
  }

  /** Naming one entry of an array that has others cuts out exactly that
      entry's text: the entry, the whitespace before it and the comma after
      it. The rest of the array, including a comma before the entry, stays. */
  lemma CutEntry(c: Container, i: nat)
    requires i < |c.entries| && i !in c.removed && |c.entries| > 1
    ensures RenderContainer(c)
      == c.head + EntriesBetween(c, 0, i) + EntrySpan(c, i) + RenderEntriesFrom(c, i + 1) + c.close
    ensures RemoveFromContainer(c, {i}).dropped == c.dropped
    ensures RenderContainer(RemoveFromContainer(c, {i}))
      == c.head + EntriesBetween(c, 0, i) + RenderEntriesFrom(c, i + 1) + c.close
  {
    RemoveOne(c, i);
    var r := c.(removed := c.removed + {i});
    var e := EntriesBetween(c, 0, i);
    var f := RenderEntriesFrom(c, i + 1);
    EntriesAroundCut(c, r, i);
    assert RenderContainer(c) == c.head + RenderEntriesFrom(c, 0) + c.close;
    assert RenderContainer(r) == c.head + RenderEntriesFrom(r, 0) + c.close;
    Bracket(c.head, e, EntrySpan(c, i), f, c.close);
  }

  lemma EntriesAroundCut(c: Container, r: Container, i: nat)
    requires i < |c.entries| && i !in c.removed
    requires r.entries == c.entries && r.trailingComma == c.trailingComma && r.removed == c.removed + {i}
    ensures RenderEntriesFrom(c, 0) == EntriesBetween(c, 0, i) + EntrySpan(c, i) + RenderEntriesFrom(c, i + 1)
    ensures RenderEntriesFrom(r, 0) == EntriesBetween(c, 0, i) + RenderEntriesFrom(c, i + 1)
  {
    EntriesAroundKept(c, i);
    EntriesAroundRemoved(c, r, i);
  }

  lemma EntriesAroundKept(c: Container, i: nat)
    requires i < |c.entries| && i !in c.removed
    ensures RenderEntriesFrom(c, 0) == EntriesBetween(c, 0, i) + EntrySpan(c, i) + RenderEntriesFrom(c, i + 1)
  {
    KeptEntryAt(c, i);
    EntriesSplit(c, 0, i);
    AssocThree(EntriesBetween(c, 0, i), EntrySpan(c, i), RenderEntriesFrom(c, i + 1));
  }

  lemma EntriesAroundRemoved(c: Container, r: Container, i: nat)
    requires i < |c.entries| && i !in c.removed
    requires r.entries == c.entries && r.trailingComma == c.trailingComma && r.removed == c.removed + {i}
    ensures RenderEntriesFrom(r, 0) == EntriesBetween(c, 0, i) + RenderEntriesFrom(c, i + 1)
  {
    RemovedEntryAt(r, i);
    EntriesSplit(r, 0, i);
    assert forall j :: 0 <= j < i ==> (j in c.removed <==> j in r.removed);
    BetweenAgree(c, r, 0, i);
    assert forall j :: i + 1 <= j < |c.entries| ==> (j in c.removed <==> j in r.removed);
    FromAgree(c, r, i + 1);
  }

  /** An entry still in place prints in front of the ones after it. */
  lemma KeptEntryAt(c: Container, i: nat)
    requires i < |c.entries| && i !in c.removed
    ensures RenderEntriesFrom(c, i) == EntrySpan(c, i) + RenderEntriesFrom(c, i + 1)
  {
  }

  /** A removed entry prints as nothing. */
  lemma RemovedEntryAt(c: Container, i: nat)
    requires i < |c.entries| && i in c.removed
    ensures RenderEntriesFrom(c, i) == RenderEntriesFrom(c, i + 1)
  {
  }

  lemma RemoveOne(c: Container, i: nat)
    requires i < |c.entries| && |c.entries| > 1
    ensures RemoveFromContainer(c, {i}) == c.(removed := c.removed + {i})
  {
    OneNamesNotAll(i, |c.entries|);
    assert Named({i}, |c.entries|) == {i};
  }

  lemma OneNamesNotAll(i: nat, n: nat)
    requires i < n && n > 1
    ensures !NamesAll({i}, n)
  {
    var other: nat := if i == 0 then 1 else 0;
    var one := {i};
    assert other < n && other !in one;
  }

  /** The module's text before the `j`-th statement of the IIFE of the class
      at body statement `k`. */
  function BeforeInner(m: UmdModule, k: nat, j: nat): string
    requires IsClassAt(m, k) && m.body.stmts[k].shape.Iife? && j < |m.body.stmts[k].shape.inner|
  {
    var shape := m.body.stmts[k].shape;
    ModuleBefore(m, k) + shape.open + RenderInners(shape.inner[..j])
  }

  /** The module's text after that statement. */
  function AfterInner(m: UmdModule, k: nat, j: nat): string
    requires IsClassAt(m, k) && m.body.stmts[k].shape.Iife? && j < |m.body.stmts[k].shape.inner|
  {
    var shape := m.body.stmts[k].shape;
    RenderInners(shape.inner[j + 1..]) + shape.close + ModuleAfter(m, k)
  }

  /** The module with the `j`-th statement of the IIFE at `k` replaced. */
  function WithInner(m: UmdModule, k: nat, j: nat, s: Inner): UmdModule
    requires IsClassAt(m, k) && m.body.stmts[k].shape.Iife? && j < |m.body.stmts[k].shape.inner|
  {
    var decl := m.body.stmts[k];
    m.(body := m.body.(stmts := m.body.stmts[k := decl.(shape := decl.shape.(inner := decl.shape.inner[j := s]))]))
  }

  lemma InnersReplaced(inner: seq<Inner>, j: nat, s: Inner)
    requires j < |inner|
    ensures RenderInners(inner[j := s]) == RenderInners(inner[..j]) + RenderInner(s) + RenderInners(inner[j + 1..])
  {
    assert inner[j := s] == inner[..j] + [s] + inner[j + 1..];
    RenderInnersAppend(inner[..j] + [s], inner[j + 1..]);
    RenderInnersAppend(inner[..j], [s]);
    assert RenderInners([s]) == RenderInner(s);
  }

  /** Replacing one statement of a class IIFE changes the module's text only
      where that statement was. */
  lemma InnerReplaced(m: UmdModule, k: nat, j: nat, s: Inner)
    requires IsClassAt(m, k) && m.body.stmts[k].shape.Iife? && j < |m.body.stmts[k].shape.inner|
    ensures Render(WithInner(m, k, j, s)) == BeforeInner(m, k, j) + RenderInner(s) + AfterInner(m, k, j)
  {
    var decl := m.body.stmts[k];
    var shape := decl.shape;
    var decl' := decl.(shape := shape.(inner := shape.inner[j := s]));
    assert WithInner(m, k, j, s) == m.(body := m.body.(stmts := m.body.stmts[k := decl']));
    ModuleAroundReplaced(m, k, decl');
    InnersReplaced(shape.inner, j, s);
    var a := RenderInners(shape.inner[..j]);
    var b := RenderInners(shape.inner[j + 1..]);
    assert Core(decl') == shape.open + (a + RenderInner(s) + b) + shape.close;
    RegroupInserted(ModuleBefore(m, k), shape.open, a, RenderInner(s), b, shape.close, ModuleAfter(m, k));
  }

  /** The module's text cut around the `j`-th statement of a class IIFE. */
  lemma RenderAroundInner(m: UmdModule, k: nat, j: nat)
    requires IsClassAt(m, k) && m.body.stmts[k].shape.Iife? && j < |m.body.stmts[k].shape.inner|
    ensures Render(m) == BeforeInner(m, k, j) + RenderInner(m.body.stmts[k].shape.inner[j]) + AfterInner(m, k, j)
  {
    var decl := m.body.stmts[k];
    var s := decl.shape.inner[j];
    assert decl.shape.inner[j := s] == decl.shape.inner;
    assert decl.(shape := decl.shape.(inner := decl.shape.inner)) == decl;
    assert m.body.stmts[k := decl] == m.body.stmts;
    assert WithInner(m, k, j, s) == m;
    InnerReplaced(m, k, j, s);
  }

  /** Removing decorators through a map that names one array only replaces
      that array's statement. */
  lemma RemoveOneArray(m: UmdModule, k: nat, j: nat, doomed: set<nat>)
    requires IsClassAt(m, k) && m.body.stmts[k].shape.Iife? && j < |m.body.stmts[k].shape.inner|
    requires m.body.stmts[k].shape.inner[j].Decorators?
    ensures var s := m.body.stmts[k].shape.inner[j];
            RemoveDecorators(m, map[ContainerRef(k, j) := doomed])
              == WithInner(m, k, j, Decorators(s.lead, RemoveFromContainer(s.container, doomed)))
  {
    var d := map[ContainerRef(k, j) := doomed];
    var s := m.body.stmts[k].shape.inner[j];
    var r := RemoveDecorators(m, d);
    var w := WithInner(m, k, j, Decorators(s.lead, RemoveFromContainer(s.container, doomed)));
    assert r.body.stmts[k] == w.body.stmts[k] by {
      var inner := m.body.stmts[k].shape.inner;
      assert r.body.stmts[k].shape.inner == w.body.stmts[k].shape.inner;
    }
    assert r.body.stmts == w.body.stmts;
  }

  /** The module's text before the `i`-th entry of the decorator array that
      is the `j`-th statement of the class IIFE at `k`. */
  function BeforeEntry(m: UmdModule, k: nat, j: nat, i: nat): string
    requires IsClassAt(m, k) && m.body.stmts[k].shape.Iife? && j < |m.body.stmts[k].shape.inner|
    requires m.body.stmts[k].shape.inner[j].Decorators?
    requires i <= |m.body.stmts[k].shape.inner[j].container.entries|
  {
    var s := m.body.stmts[k].shape.inner[j];
    BeforeInner(m, k, j) + s.lead + s.container.head + EntriesBetween(s.container, 0, i)
  }

  /** The module's text after that entry and its comma. */
  function AfterEntry(m: UmdModule, k: nat, j: nat, i: nat): string
    requires IsClassAt(m, k) && m.body.stmts[k].shape.Iife? && j < |m.body.stmts[k].shape.inner|
    requires m.body.stmts[k].shape.inner[j].Decorators?
    requires i < |m.body.stmts[k].shape.inner[j].container.entries|
  {
    var s := m.body.stmts[k].shape.inner[j];
    RenderEntriesFrom(s.container, i + 1) + s.container.close + AfterInner(m, k, j)
  }

  /** `removeDecorators` naming one entry of an array that has others: the
      module's text loses exactly that entry, with the whitespace before it
      and the comma after it, and nothing else. */
  lemma RemoveDecoratorsCutsEntry(m: UmdModule, k: nat, j: nat, i: nat)
    requires IsClassAt(m, k) && m.body.stmts[k].shape.Iife? && j < |m.body.stmts[k].shape.inner|
    requires m.body.stmts[k].shape.inner[j].Decorators?
    requires var c := m.body.stmts[k].shape.inner[j].container;
             !c.dropped && i < |c.entries| && i !in c.removed && |c.entries| > 1
    ensures var c := m.body.stmts[k].shape.inner[j].container;
            Render(m) == BeforeEntry(m, k, j, i) + EntrySpan(c, i) + AfterEntry(m, k, j, i)
    ensures Render(RemoveDecorators(m, map[ContainerRef(k, j) := {i}]))
      == BeforeEntry(m, k, j, i) + AfterEntry(m, k, j, i)
  {
    var s := m.body.stmts[k].shape.inner[j];
    var c := s.container;
    var r := RemoveFromContainer(c, {i});
    CutEntry(c, i);
    RemoveOneArray(m, k, j, {i});
    RenderAroundInner(m, k, j);
    InnerReplaced(m, k, j, Decorators(s.lead, r));
    var p := BeforeInner(m, k, j);
    var q := AfterInner(m, k, j);
    var e := EntriesBetween(c, 0, i);
    var f := RenderEntriesFrom(c, i + 1);
    assert RenderInner(s) == s.lead + (c.head + e + EntrySpan(c, i) + f + c.close);
    assert RenderInner(Decorators(s.lead, r)) == s.lead + (c.head + e + f + c.close);
    RegroupEntry(p, s.lead, c.head, e, EntrySpan(c, i), f, c.close, q);
  }

  /** `removeDecorators` naming every entry of an array: the array's whole
      statement goes, with the whitespace before it. */
  lemma RemoveDecoratorsDropsStatement(m: UmdModule, k: nat, j: nat, doomed: set<nat>)
    requires IsClassAt(m, k) && m.body.stmts[k].shape.Iife? && j < |m.body.stmts[k].shape.inner|
    requires m.body.stmts[k].shape.inner[j].Decorators?
    requires NamesAll(doomed, |m.body.stmts[k].shape.inner[j].container.entries|)
    ensures Render(m) == BeforeInner(m, k, j) + RenderInner(m.body.stmts[k].shape.inner[j]) + AfterInner(m, k, j)
    ensures Render(RemoveDecorators(m, map[ContainerRef(k, j) := doomed])) == BeforeInner(m, k, j) + AfterInner(m, k, j)
  {
    var s := m.body.stmts[k].shape.inner[j];
    RemoveOneArray(m, k, j, doomed);
    RenderAroundInner(m, k, j);
    InnerReplaced(m, k, j, Decorators(s.lead, RemoveFromContainer(s.container, doomed)));
  }

  /** Two removals from the same array, together naming fewer than all of
      its entries, leave it as one removal naming both sets. */
  lemma RemovalsCompose(c: Container, a: set<nat>, b: set<nat>)
    requires !NamesAll(a + b, |c.entries|)
    ensures RemoveFromContainer(RemoveFromContainer(c, a), b) == RemoveFromContainer(c, a + b)
  {
    var n := |c.entries|;
    assert !NamesAll(a, n) && !NamesAll(b, n);
    assert Named(a, n) + Named(b, n) == Named(a + b, n);
  }

  /** But when the two together name every entry, neither removal drops the
      statement on its own: the array is left in place with no entries,
      where a single removal naming them all drops the whole statement. */
  lemma RemovalsNamingAllDoNotCompose(head: string, a: Entry, b: Entry, close: string)
    ensures var c := Container(head, [a, b], false, close, {}, false);
            var twice := RemoveFromContainer(RemoveFromContainer(c, {0}), {1});
            var once := RemoveFromContainer(c, {0, 1});
            !twice.dropped && RenderContainer(twice) == head + close && once.dropped
  {
    var c := Container(head, [a, b], false, close, {}, false);
    RemoveOne(c, 0);
    var c1 := c.(removed := {} + {0});
    RemoveOne(c1, 1);
    var twice := c1.(removed := c1.removed + {1});
    assert RenderEntriesFrom(twice, 2) == "";
    assert RenderEntriesFrom(twice, 1) == "";
    assert RenderEntriesFrom(twice, 0) == "";
    assert NamesAll({0, 1}, 2);
  }

  /** The two-entry array and its text. */
  lemma TwoEntries(c: Container)
    requires |c.entries| == 2 && c.removed == {}
    ensures RenderEntriesFrom(c, 1) == EntrySpan(c, 1)
    ensures RenderEntriesFrom(c, 0) == EntrySpan(c, 0) + EntrySpan(c, 1)
    ensures EntrySpan(c, 0) == c.entries[0].lead + c.entries[0].text + ","
  {
    assert RenderEntriesFrom(c, 2) == "";
    assert RenderEntriesFrom(c, 1) == EntrySpan(c, 1) + "";
  }

  /** Removing the first of two entries takes its comma with it. */
  lemma FirstOfTwoRemoved(head: string, a: Entry, b: Entry, trailingComma: bool, close: string)
    ensures var c := Container(head, [a, b], trailingComma, close, {}, false);
            var comma := if trailingComma then "," else "";
            && RenderContainer(c) == head + (a.lead + a.text + ",") + (b.lead + b.text + comma) + close
            && RenderContainer(RemoveFromContainer(c, {0})) == head + (b.lead + b.text + comma) + close
  {
    var c := Container(head, [a, b], trailingComma, close, {}, false);
    var comma := if trailingComma then "," else "";
    TwoEntries(c);
    assert EntrySpan(c, 1) == b.lead + b.text + comma;
    assert RenderContainer(c) == head + (EntrySpan(c, 0) + EntrySpan(c, 1)) + close;
    RemoveOne(c, 0);
    var r := c.(removed := {} + {0});
    assert RenderEntriesFrom(r, 2) == "";
    assert RenderEntriesFrom(r, 1) == EntrySpan(c, 1) + "";
    assert RenderEntriesFrom(r, 0) == RenderEntriesFrom(r, 1);
  }

  /** Removing the last of two entries when it has no comma of its own: the
      comma in front of it stays. */
  lemma LastOfTwoRemoved(head: string, a: Entry, b: Entry, close: string)
    ensures var c := Container(head, [a, b], false, close, {}, false);
            && RenderContainer(c) == head + (a.lead + a.text + ",") + (b.lead + b.text) + close
            && RenderContainer(RemoveFromContainer(c, {1})) == head + (a.lead + a.text + ",") + close
  {
    var c := Container(head, [a, b], false, close, {}, false);
    TwoEntries(c);
    assert EntrySpan(c, 1) == b.lead + b.text + "";
    assert RenderContainer(c) == head + (EntrySpan(c, 0) + EntrySpan(c, 1)) + close;
    RemoveOne(c, 1);
    var r := c.(removed := {} + {1});
    assert RenderEntriesFrom(r, 2) == "";
    assert RenderEntriesFrom(r, 1) == "";
    assert RenderEntriesFrom(r, 0) == EntrySpan(c, 0) + "";
  }

  /** A class whose only decorator is removed: its decorator statement
      disappears, so the constructor function is followed directly by the
      `return`. */
  lemma SoleDecoratorRemoved(m: UmdModule, k: nat)
    requires IsClassAt(m, k) && m.body.stmts[k].shape.Iife?
    requires var inner := m.body.stmts[k].shape.inner;
             |inner| == 3 && inner[0].Code? && inner[1].Decorators? && inner[2].Return?
             && |inner[1].container.entries| == 1
    ensures var m1 := RemoveDecorators(m, map[ContainerRef(k, 1) := {0}]);
            var shape := m.body.stmts[k].shape;
            var inner := shape.inner;
            && HasIifeReturn(m1, k)
            && BeforeReturn(m1, k) == ModuleBefore(m, k) + shape.open + (inner[0].lead + inner[0].text)
            && FromReturn(m1, k) == (inner[2].lead + inner[2].text) + shape.close + ModuleAfter(m, k)
            && Render(m1) == ModuleBefore(m, k) + shape.open + (inner[0].lead + inner[0].text)
                 + ((inner[2].lead + inner[2].text) + shape.close + ModuleAfter(m, k))
  {
    var decl := m.body.stmts[k];
    var shape := decl.shape;
    var inner := shape.inner;
    var s := inner[1];
    var gone := RemoveFromContainer(s.container, {0});
    assert NamesAll({0}, 1);
    assert gone.dropped;
    var m1 := RemoveDecorators(m, map[ContainerRef(k, 1) := {0}]);
    RemoveOneArray(m, k, 1, {0});
    var inner1 := inner[1 := Decorators(s.lead, gone)];
    var decl1 := decl.(shape := shape.(inner := inner1));
    assert m1 == m.(body := m.body.(stmts := m.body.stmts[k := decl1]));
    assert m1.body.stmts[k] == decl1;
    FirstReturnIs(inner1, 2);
    BodyAroundReplaced(m.body, k, decl1);
    assert ModuleBefore(m1, k) == ModuleBefore(m, k);
    assert ModuleAfter(m1, k) == ModuleAfter(m, k);
    assert inner1[..2] == [inner[0]] + [Decorators(s.lead, gone)];
    RenderInnersAppend([inner[0]], [Decorators(s.lead, gone)]);
    assert RenderInners([inner[0]]) == inner[0].lead + inner[0].text;
    assert RenderInners([Decorators(s.lead, gone)]) == "";
    assert inner1[2..] == [inner[2]];
    assert RenderInners(inner1[2..]) == inner[2].lead + inner[2].text;
    RenderAroundReturn(m1, k);
  }

  /** A class whose only decorator is removed and that then receives its
      definitions: the constructor function is followed by the definitions
      and then directly by the `return`. */
  lemma SoleDecoratorThenDefinitions(m: UmdModule, k: nat, c: CompiledClass, definitions: string)
    requires c.declaration == k && IsClassAt(m, k) && m.body.stmts[k].shape.Iife?
    requires var inner := m.body.stmts[k].shape.inner;
             |inner| == 3 && inner[0].Code? && inner[1].Decorators? && inner[2].Return?
             && |inner[1].container.entries| == 1
    ensures var shape := m.body.stmts[k].shape;
            var inner := shape.inner;
            var r := AddDefinitions(RemoveDecorators(m, map[ContainerRef(k, 1) := {0}]), c, definitions);
            && r.Ok?
            && Render(r.value)
              == ModuleBefore(m, k) + shape.open + (inner[0].lead + inner[0].text) + "\n" + definitions
                 + ((inner[2].lead + inner[2].text) + shape.close + ModuleAfter(m, k))
  {
    var m1 := RemoveDecorators(m, map[ContainerRef(k, 1) := {0}]);
    SoleDecoratorRemoved(m, k);
  }
}

=== FILE: factory_body_edits.dfy ===
/** The two edits of the factory body: `addConstants` puts text at the top of
    the body and `addExports` puts `exports.X = ...;` lines at its end. */
module FactoryBodyEdits {
  import opened Outcomes
  import opened Text
  import opened Paths
  import opened ImportManagement
  import opened UmdModel

  /** `addConstants`: the text goes on lines of its own in front of the first
      statement of the factory body (after that statement's leading
      whitespace), or just inside the opening brace of an empty body. */
  function AddConstants(m: UmdModule, constants: string): (r: UmdModule)
    ensures r.path == m.path && r.afterParams == m.afterParams
    ensures r.body.stmts == m.body.stmts && r.body.exports == m.body.exports
    ensures r.body.closing == m.body.closing
    ensures r.wrapper == m.wrapper && r.params == m.params && r.tail == m.tail
    ensures StartsWith(r.body.constants, m.body.constants)
    ensures Render(r) == ConstantsPrefix(m) + m.body.constants + "\n" + constants + "\n" + ConstantsSuffix(m)
  {
    var added := m.body.constants + "\n" + constants + "\n";
    RenderWithConstants(m, added);
    Spread(ConstantsPrefix(m), m.body.constants, constants, ConstantsSuffix(m));
    m.(body := m.body.(constants := added))
  }

  /** The whitespace in front of the first statement, if any. */
  function FirstLead(b: Body): string
  {
    if |b.stmts| == 0 then "" else Lead(b.stmts[0])
  }

  /** The body's text after the place constants are inserted. */
  function AfterConstants(b: Body): string
  {
    if |b.stmts| == 0 then b.closing + b.exports + "}"
    else Core(b.stmts[0]) + RenderStmts(b.stmts[1..]) + b.exports + b.closing + "}"
  }

  lemma BodyAroundConstants(b: Body)
    ensures RenderBody(b) == "{" + FirstLead(b) + b.constants + AfterConstants(b)
  {
  }

  /** The module's text up to the place constants are inserted. */
  function ConstantsPrefix(m: UmdModule): string
  {
    RenderParts(m.wrapper) + RenderList(m.params) + m.afterParams + "{" + FirstLead(m.body)
  }

  /** The module's text after the place constants are inserted. */
  function ConstantsSuffix(m: UmdModule): string
  {
    AfterConstants(m.body) + m.tail
  }

  /** Whatever the constants slot holds sits between the prefix and the
      suffix. */
  lemma RenderWithConstants(m: UmdModule, constants: string)
    ensures Render(m.(body := m.body.(constants := constants)))
      == ConstantsPrefix(m) + constants + ConstantsSuffix(m)
  {
    var r := m.(body := m.body.(constants := constants));
    var w := RenderParts(m.wrapper) + RenderList(m.params) + m.afterParams;
    BodyAroundConstants(r.body);
    assert FirstLead(r.body) == FirstLead(m.body);
    assert AfterConstants(r.body) == AfterConstants(m.body);
    assert Render(r) == w + RenderBody(r.body) + m.tail;
    RegroupMiddle(w, "{" + FirstLead(m.body), constants, AfterConstants(m.body), m.tail);
  }

  /** The constants land at one place, after everything inserted there
      before, and the rest of the text is unchanged around them. */
  lemma AddConstantsInserts(m: UmdModule, constants: string)
    ensures Render(m) == ConstantsPrefix(m) + m.body.constants + ConstantsSuffix(m)
    ensures Render(AddConstants(m, constants))
      == ConstantsPrefix(m) + m.body.constants + "\n" + constants + "\n" + ConstantsSuffix(m)
  {
    var k := m.body.constants;
    assert m.(body := m.body.(constants := k)) == m;
    RenderWithConstants(m, k);
  }

  /** The first statement of the body follows the inserted constants
      directly: `{\n  \nvar x = 3;\n'use strict';` */
  lemma ConstantsBeforeFirstStatement(m: UmdModule, constants: string)
    requires |m.body.stmts| > 0 && m.body.constants == ""
    ensures Contains(Render(AddConstants(m, constants)),
                     "{" + Lead(m.body.stmts[0]) + "\n" + constants + "\n" + Core(m.body.stmts[0]))
  {
    var b := m.body;
    var x := "{" + Lead(b.stmts[0]);
    var y := Core(b.stmts[0]);
    var pre := RenderParts(m.wrapper) + RenderList(m.params) + m.afterParams;
    var rest := RenderStmts(b.stmts[1..]) + b.exports + b.closing + "}";
    ConstantsAroundFirstStatement(m, constants, pre, x, y, rest);
    ContainsPart(pre, x + "\n" + constants + "\n" + y, rest + m.tail);
  }

  lemma ConstantsAroundFirstStatement(m: UmdModule, constants: string, pre: string, x: string, y: string, rest: string)
    requires |m.body.stmts| > 0 && m.body.constants == ""
    requires pre == RenderParts(m.wrapper) + RenderList(m.params) + m.afterParams
    requires x == "{" + Lead(m.body.stmts[0]) && y == Core(m.body.stmts[0])
    requires rest == RenderStmts(m.body.stmts[1..]) + m.body.exports + m.body.closing + "}"
    ensures Render(AddConstants(m, constants)) == pre + (x + "\n" + constants + "\n" + y) + (rest + m.tail)
  {
    var b := m.body;
    assert ConstantsPrefix(m) == pre + x by {
      assert FirstLead(b) == Lead(b.stmts[0]);
      AssocLeft(pre, "{", Lead(b.stmts[0]));
    }
    assert ConstantsSuffix(m) == y + (rest + m.tail) by {
      assert AfterConstants(b) == y + RenderStmts(b.stmts[1..]) + b.exports + b.closing + "}";
      AssocFive(y, RenderStmts(b.stmts[1..]), b.exports, b.closing, "}");
      AssocLeft(y, rest, m.tail);
    }
    AddConstantsInserts(m, constants);
    Centre(pre, x, constants, y, rest + m.tail);
  }

  /** A symbol to re-export from the entry point: `identifier` as declared
      in the file `from`. */
  datatype ExportInfo = ExportInfo(identifier: string, from: string)

  /** `exports.<identifier> = <value>;` on a line of its own. */
  function ExportLine(identifier: string, value: string): string
  {
    "\nexports." + identifier + " = " + value + ";"
  }

  /** The module specifier under which `e` is imported into the entry point
      whose extension-less path is `entryBase`. */
  function ExportSpecifier(entryBase: string, e: ExportInfo): string
  {
    RelativeSpecifier(entryBase, e.from)
  }

  predicate SameFile(entryBase: string, e: ExportInfo)
  {
    StripJs(e.from) == entryBase
  }

  /** The export line for `e`: a symbol of the entry point itself is exported
      by its bare name, any other through the namespace import of its
      module, asked of the import manager. */
  function ExportStatement(entryBase: string, e: ExportInfo, manager: ImportManager)
    : (r: (string, ImportManager))
    ensures Extends(r.1, manager)
    ensures Distinct(manager.modules) ==> Distinct(r.1.modules)
    ensures SameFile(entryBase, e) ==> r == (ExportLine(e.identifier, e.identifier), manager)
    ensures !SameFile(entryBase, e) ==>
      var q := QualifierOf(r.1, ExportSpecifier(entryBase, e));
      q.Some? && r.0 == ExportLine(e.identifier, q.value + "." + e.identifier)
  {
    if SameFile(entryBase, e) then (ExportLine(e.identifier, e.identifier), manager)
    else
      var (next, named) := GenerateNamedImport(manager, ExportSpecifier(entryBase, e), e.identifier);
      (ExportLine(e.identifier, named.moduleImport + "." + named.symbol), next)
  }

  /** What the line for `e` reads, given the qualifier each module is bound
      to in `manager`. */
  predicate LineFor(entryBase: string, e: ExportInfo, manager: ImportManager, line: string)
  {
    if SameFile(entryBase, e) then line == ExportLine(e.identifier, e.identifier)
    else
      var q := QualifierOf(manager, ExportSpecifier(entryBase, e));
      q.Some? && line == ExportLine(e.identifier, q.value + "." + e.identifier)
  }

  lemma LineForStable(entryBase: string, e: ExportInfo, earlier: ImportManager, later: ImportManager, line: string)
    requires Extends(later, earlier)
    requires LineFor(entryBase, e, earlier, line)
    ensures LineFor(entryBase, e, later, line)
  {
    if !SameFile(entryBase, e) {
      QualifierStable(earlier, later, ExportSpecifier(entryBase, e));
    }
  }

  /** The lines for all exports, in order, and the manager after them. */
  function ExportStatements(entryBase: string, exports: seq<ExportInfo>, manager: ImportManager)
    : (r: (seq<string>, ImportManager))
    ensures |r.0| == |exports|
    decreases |exports|
  {
    if |exports| == 0 then ([], manager)
    else
      var (line, next) := ExportStatement(entryBase, exports[0], manager);
      var (rest, last) := ExportStatements(entryBase, exports[1..], next);
      ([line] + rest, last)
  }

  /** The export lines only ever add bindings, keep the modules distinct,
      and every line uses the qualifier its module ends up bound to. */
  lemma {:induction false} ExportStatementsBind(entryBase: string, exports: seq<ExportInfo>, manager: ImportManager)
    ensures Extends(ExportStatements(entryBase, exports, manager).1, manager)
    ensures Distinct(manager.modules) ==> Distinct(ExportStatements(entryBase, exports, manager).1.modules)
    ensures var r := ExportStatements(entryBase, exports, manager);
            forall i :: 0 <= i < |exports| ==> LineFor(entryBase, exports[i], r.1, r.0[i])
    decreases |exports|
  {
    if |exports| > 0 {
      var (line, next) := ExportStatement(entryBase, exports[0], manager);
      ExportStatementsBind(entryBase, exports[1..], next);
      var (rest, last) := ExportStatements(entryBase, exports[1..], next);
      assert ExportStatements(entryBase, exports, manager) == ([line] + rest, last);
      assert LineFor(entryBase, exports[0], next, line);
      LineForStable(entryBase, exports[0], next, last, line);
      ExtendsTransitive(manager, next, last);
      forall i | 0 <= i < |exports|
        ensures LineFor(entryBase, exports[i], last, ([line] + rest)[i])
      {
        if i > 0 {
          assert exports[i] == exports[1..][i - 1];
        }
      }
    }
  }

  lemma ExtendsTransitive(a: ImportManager, b: ImportManager, c: ImportManager)
    requires Extends(b, a) && Extends(c, b)
    ensures Extends(c, a)
  {
    assert c.modules[..|a.modules|] == c.modules[..|b.modules|][..|a.modules|];
  }

  /** `addExports`: the export lines, in order, after the last statement of
      the factory body and after any export text inserted there before. */
  function AddExports(m: UmdModule, entryBase: string, exports: seq<ExportInfo>, manager: ImportManager)
    : (r: (UmdModule, ImportManager))
    ensures r.0.body.stmts == m.body.stmts && r.0.body.constants == m.body.constants
    ensures r.0.body.closing == m.body.closing
    ensures r.0.wrapper == m.wrapper && r.0.params == m.params && r.0.tail == m.tail
    ensures r.0.afterParams == m.afterParams
    ensures r.1 == ExportStatements(entryBase, exports, manager).1
    ensures r.0.body.exports == m.body.exports + Concat(ExportStatements(entryBase, exports, manager).0)
  {
    var (lines, next) := ExportStatements(entryBase, exports, manager);
    (m.(body := m.body.(exports := m.body.exports + Concat(lines))), next)
  }

  /** The module's text up to the place exports are inserted. */
  function ExportsPrefix(m: UmdModule): string
  {
    var b := m.body;
    RenderParts(m.wrapper) + RenderList(m.params) + m.afterParams
      + (if |b.stmts| == 0 then "{" + b.constants + b.closing
         else "{" + Lead(b.stmts[0]) + b.constants + Core(b.stmts[0]) + RenderStmts(b.stmts[1..]))
  }

  /** The module's text after the place exports are inserted. */
  function ExportsSuffix(m: UmdModule): string
  {
    (if |m.body.stmts| == 0 then "" else m.body.closing) + "}" + m.tail
  }

  /** The export lines land at one place, after everything inserted there
      before; with statements in the body that place is just before the
      whitespace that precedes the body's closing brace. */
  lemma AddExportsInserts(m: UmdModule, entryBase: string, exports: seq<ExportInfo>, manager: ImportManager)
    ensures Render(m) == ExportsPrefix(m) + m.body.exports + ExportsSuffix(m)
    ensures Render(AddExports(m, entryBase, exports, manager).0)
      == ExportsPrefix(m) + m.body.exports + Concat(ExportStatements(entryBase, exports, manager).0)
         + ExportsSuffix(m)
  {
    var r := AddExports(m, entryBase, exports, manager).0;
    var lines := Concat(ExportStatements(entryBase, exports, manager).0);
    assert Render(m) == ExportsPrefix(m) + m.body.exports + ExportsSuffix(m) by {
      RenderWithExports(m, m);
    }
    assert r.body.exports == m.body.exports + lines;
    assert Render(r) == ExportsPrefix(m) + r.body.exports + ExportsSuffix(m) by {
      RenderWithExports(m, r);
    }
    Assoc(ExportsPrefix(m), m.body.exports, lines, ExportsSuffix(m));
  }

  /** Whatever the exports slot holds sits between the prefix and the
      suffix. */
  lemma RenderWithExports(m: UmdModule, r: UmdModule)
    requires r.wrapper == m.wrapper && r.params == m.params && r.afterParams == m.afterParams
    requires r.tail == m.tail && r.body.stmts == m.body.stmts
    requires r.body.constants == m.body.constants && r.body.closing == m.body.closing
    ensures Render(r) == ExportsPrefix(m) + r.body.exports + ExportsSuffix(m)
  {
    var b := m.body;
    var w := RenderParts(m.wrapper) + RenderList(m.params) + m.afterParams;
    assert Render(r) == w + RenderBody(r.body) + m.tail;
    if |b.stmts| == 0 {
      var x := "{" + b.constants + b.closing;
      assert RenderBody(r.body) == x + r.body.exports + "}";
      assert ExportsPrefix(m) == w + x;
      RegroupMiddle(w, x, r.body.exports, "}", m.tail);
    } else {
      var x := "{" + Lead(b.stmts[0]) + b.constants + Core(b.stmts[0]) + RenderStmts(b.stmts[1..]);
      assert RenderBody(r.body) == x + r.body.exports + (b.closing + "}");
      assert ExportsPrefix(m) == w + x;
      RegroupMiddle(w, x, r.body.exports, b.closing + "}", m.tail);
    }
  }

  /** The first export from a module binds the module to the next
      qualifier. */
  lemma ExportFromNewModule(entryBase: string, e: ExportInfo, manager: ImportManager)
    requires !SameFile(entryBase, e)
    requires QualifierOf(manager, ExportSpecifier(entryBase, e)).None?
    ensures ExportStatement(entryBase, e, manager)
      == (ExportLine(e.identifier, QualifierFor(|manager.modules|) + "." + e.identifier),
          ImportManager(manager.modules + [ExportSpecifier(entryBase, e)]))
  {
  }

  /** A later export from the same module reuses its qualifier. */
  lemma ExportFromKnownModule(entryBase: string, e: ExportInfo, manager: ImportManager, k: nat)
    requires !SameFile(entryBase, e)
    requires IndexOf(manager.modules, ExportSpecifier(entryBase, e)) == Some(k)
    ensures ExportStatement(entryBase, e, manager)
      == (ExportLine(e.identifier, QualifierFor(k) + "." + e.identifier), manager)
  {
  }

  /** The specifiers of the test's exports, seen from `dir/entryName`. */
  lemma ExampleSpecifiers(dir: string, entryName: string, x: string)
    requires '/' !in entryName && entryName != "a"
    ensures !SameFile(dir + "/" + entryName, ExportInfo(x, dir + "/" + "a" + JsExtension))
    ensures !SameFile(dir + "/" + entryName, ExportInfo(x, dir + "/" + "foo/b" + JsExtension))
    ensures SameFile(dir + "/" + entryName, ExportInfo(x, dir + "/" + entryName + JsExtension))
    ensures ExportSpecifier(dir + "/" + entryName, ExportInfo(x, dir + "/" + "a" + JsExtension)) == "./a"
    ensures ExportSpecifier(dir + "/" + entryName, ExportInfo(x, dir + "/" + "foo/b" + JsExtension)) == "./foo/b"
  {
    var base := dir + "/" + entryName;
    SpecifierBelowEntryDir(dir, entryName, "a");
    SpecifierBelowEntryDir(dir, entryName, "foo/b");
    StripJsAdded(dir + "/" + "a");
    StripJsAdded(dir + "/" + "foo/b");
    StripJsAdded(base);
    assert (dir + "/" + "a")[|dir| + 1..] == "a";
    assert base[|dir| + 1..] == entryName;
    assert (dir + "/" + "foo/b")[|dir| + 4] == '/';
    assert |entryName| > 3 ==> base[|dir| + 4] == entryName[3] != '/';
  }

  lemma ExportStatementsStep(entryBase: string, e: ExportInfo, rest: seq<ExportInfo>,
                             manager: ImportManager, line: string, next: ImportManager,
                             lines: seq<string>, last: ImportManager)
    requires ExportStatement(entryBase, e, manager) == (line, next)
    requires ExportStatements(entryBase, rest, next) == (lines, last)
    ensures ExportStatements(entryBase, [e] + rest, manager) == ([line] + lines, last)
  {
    assert ([e] + rest)[1..] == rest;
  }

  /** The two exports from `a.js`: the first binds `./a` to `i0`, the
      second reuses it. */
  lemma ExampleFromA(dir: string, entryName: string, a1: string, a2: string)
    requires '/' !in entryName && entryName != "a"
    ensures ExportStatement(dir + "/" + entryName, ExportInfo(a1, dir + "/" + "a" + JsExtension), ImportManager([]))
      == (ExportLine(a1, "i0" + "." + a1), ImportManager(["./a"]))
    ensures ExportStatement(dir + "/" + entryName, ExportInfo(a2, dir + "/" + "a" + JsExtension), ImportManager(["./a"]))
      == (ExportLine(a2, "i0" + "." + a2), ImportManager(["./a"]))
  {
    var base := dir + "/" + entryName;
    ExampleSpecifiers(dir, entryName, a1);
    ExampleSpecifiers(dir, entryName, a2);
    QualifierZeroOne();
    var m0 := ImportManager([]);
    ExportFromNewModule(base, ExportInfo(a1, dir + "/" + "a" + JsExtension), m0);
    assert m0.modules + ["./a"] == ["./a"];
    ExportFromKnownModule(base, ExportInfo(a2, dir + "/" + "a" + JsExtension), ImportManager(["./a"]), 0);
  }

  /** The export from `foo/b.js` binds `./foo/b` to `i1`; the entry point's
      own symbol leaves the manager alone. */
  lemma ExampleFromBAndEntry(dir: string, entryName: string, b: string, top: string)
    requires '/' !in entryName && entryName != "a"
    ensures ExportStatement(dir + "/" + entryName, ExportInfo(b, dir + "/" + "foo/b" + JsExtension), ImportManager(["./a"]))
      == (ExportLine(b, "i1" + "." + b), ImportManager(["./a", "./foo/b"]))
    ensures ExportStatement(dir + "/" + entryName, ExportInfo(top, dir + "/" + entryName + JsExtension), ImportManager(["./a", "./foo/b"]))
      == (ExportLine(top, top), ImportManager(["./a", "./foo/b"]))
  {
    var base := dir + "/" + entryName;
    ExampleSpecifiers(dir, entryName, b);
    ExampleSpecifiers(dir, entryName, top);
    QualifierZeroOne();
    var m1 := ImportManager(["./a"]);
    assert IndexOf(m1.modules, "./foo/b") == None;
    ExportFromNewModule(base, ExportInfo(b, dir + "/" + "foo/b" + JsExtension), m1);
    assert m1.modules + ["./foo/b"] == ["./a", "./foo/b"];
  }

  /** The exports of the formatter's test: two symbols of `a.js` and one of
      `foo/b.js` next to the entry point, and one of the entry point itself.
      With a fresh import manager, `./a` is bound to `i0` (and reused) and
      `./foo/b` to `i1`; the entry point's own symbol is exported bare. */
  lemma ExportsExample(dir: string, entryName: string, a1: string, a2: string, b: string, top: string)
    requires '/' !in entryName && entryName != "a"
    ensures var exports := [
              ExportInfo(a1, dir + "/" + "a" + JsExtension),
              ExportInfo(a2, dir + "/" + "a" + JsExtension),
              ExportInfo(b, dir + "/" + "foo/b" + JsExtension),
              ExportInfo(top, dir + "/" + entryName + JsExtension)];
            ExportStatements(dir + "/" + entryName, exports, ImportManager([])).0
              == [ExportLine(a1, "i0" + "." + a1), ExportLine(a2, "i0" + "." + a2),
                  ExportLine(b, "i1" + "." + b), ExportLine(top, top)]
  {
    var base := dir + "/" + entryName;
    var ea1 := ExportInfo(a1, dir + "/" + "a" + JsExtension);
    var ea2 := ExportInfo(a2, dir + "/" + "a" + JsExtension);
    var eb := ExportInfo(b, dir + "/" + "foo/b" + JsExtension);
    var et := ExportInfo(top, dir + "/" + entryName + JsExtension);
    var m0 := ImportManager([]);
    var m1 := ImportManager(["./a"]);
    var m2 := ImportManager(["./a", "./foo/b"]);
    ExampleFromBAndEntry(dir, entryName, b, top);
    var la1 := ExportLine(a1, "i0" + "." + a1);
    var la2 := ExportLine(a2, "i0" + "." + a2);
    var lb := ExportLine(b, "i1" + "." + b);
    var lt := ExportLine(top, top);
    ExampleFromA(dir, entryName, a1, a2);
    ExampleTail(base, eb, et, m1, m2, lb, lt);
    ExampleMiddle(base, ea2, eb, et, m1, m2, la2, lb, lt);
    ExampleAssemble(base, ea1, ea2, eb, et, m0, m1, m2, la1, la2, lb, lt);
  }

  lemma ExampleAssemble(base: string, ea1: ExportInfo, ea2: ExportInfo, eb: ExportInfo, et: ExportInfo,
                        m0: ImportManager, m1: ImportManager, m2: ImportManager,
                        la1: string, la2: string, lb: string, lt: string)
    requires ExportStatement(base, ea1, m0) == (la1, m1)
    requires ExportStatements(base, [ea2, eb, et], m1) == ([la2, lb, lt], m2)
    ensures ExportStatements(base, [ea1, ea2, eb, et], m0).0 == [la1, la2, lb, lt]
  {
    ExportStatementsStep(base, ea1, [ea2, eb, et], m0, la1, m1, [la2, lb, lt], m2);
    assert [ea1] + [ea2, eb, et] == [ea1, ea2, eb, et];
    assert [la1] + [la2, lb, lt] == [la1, la2, lb, lt];
  }

  lemma ExampleMiddle(base: string, ea2: ExportInfo, eb: ExportInfo, et: ExportInfo,
                      m1: ImportManager, m2: ImportManager, la2: string, lb: string, lt: string)
    requires ExportStatement(base, ea2, m1) == (la2, m1)
    requires ExportStatements(base, [eb, et], m1) == ([lb, lt], m2)
    ensures ExportStatements(base, [ea2, eb, et], m1) == ([la2, lb, lt], m2)
  {
    ExportStatementsStep(base, ea2, [eb, et], m1, la2, m1, [lb, lt], m2);
    assert [ea2] + [eb, et] == [ea2, eb, et];
    assert [la2] + [lb, lt] == [la2, lb, lt];
  }

  lemma ExampleTail(base: string, eb: ExportInfo, et: ExportInfo, m1: ImportManager, m2: ImportManager,
                    lb: string, lt: string)
    requires ExportStatement(base, eb, m1) == (lb, m2) && ExportStatement(base, et, m2) == (lt, m2)
    ensures ExportStatements(base, [eb, et], m1) == ([lb, lt], m2)
  {
    var none: seq<ExportInfo> := [];
    var noLines: seq<string> := [];
    assert ExportStatements(base, none, m2) == (noLines, m2);
    ExportStatementsStep(base, et, none, m2, lt, m2, noLines, m2);
    assert [et] + none == [et] && [lt] + noLines == [lt];
    ExportStatementsStep(base, eb, [et], m1, lb, m2, [lt], m2);
    assert [eb] + [et] == [eb, et] && [lb] + [lt] == [lb, lt];
  }
}

=== FILE: global_names.dfy ===
/** The mapping from a module specifier to the property path under which a
    UMD bundle publishes that module on the global object, as used in the
    "global" loader branch: `@angular/x` lives under `ng.x`, any other scope
    marker `@` is dropped, `/` becomes `.`, and a run of hyphens followed by a
    character becomes that character in upper case. */
module GlobalNames {
  import opened Text

  /** Angular's own scope, published under the short name `ng`. */
  const AngularScope: string := "@angular/"

  /** ASCII upper-casing; every other character is left as it is. */
  function ToUpper(c: char): (u: char)
    ensures u == '-' <==> c == '-'
    ensures u == '/' <==> c == '/'
    ensures u == '.' <==> c == '.'
  {
    if 'a' <= c <= 'z' then (c as int - 32) as char else c
  }

  /** `s` with its leading run of hyphens removed. */
  function DropHyphens(s: string): (r: string)
    ensures |r| <= |s|
    ensures |r| == 0 || r[0] != '-'
  {
    if |s| > 0 && s[0] == '-' then DropHyphens(s[1..]) else s
  }

  /** Camel-casing: each run of hyphens is removed and the character after it
      (if any) is upper-cased; every other character is kept. */
  function CamelCase(s: string): (r: string)
    ensures '-' !in r
    decreases |s|
  {
    if |s| == 0 then ""
    else if s[0] == '-' then
      var rest := DropHyphens(s);
      if |rest| == 0 then "" else [ToUpper(rest[0])] + CamelCase(rest[1..])
    else
      [s[0]] + CamelCase(s[1..])
  }

  predicate HasAngularScope(specifier: string)
  {
    StartsWith(specifier, AngularScope)
  }

  /** The specifier with its scope marker resolved: `@angular/` becomes
      `ng.`, any other leading `@` is dropped. */
  function Unscoped(specifier: string): string
  {
    if HasAngularScope(specifier) then "ng." + specifier[|AngularScope|..]
    else if |specifier| > 0 && specifier[0] == '@' then specifier[1..]
    else specifier
  }

  /** The global property path (without the leading `global.`) of a module. */
  function GlobalIdentifier(specifier: string): (r: string)
    ensures '-' !in r
  {
    CamelCase(ReplaceChar(Unscoped(specifier), '/', '.'))
  }

  /** The expression the global loader branch passes for a dependency. */
  function GlobalAccess(specifier: string): string
  {
    "global." + GlobalIdentifier(specifier)
  }

  // ---------------------------------------------------------------------
  // Reference definition by path segments, and its agreement with the
  // character-level rewriting above.

  function MapCamelCase(segments: seq<string>): (r: seq<string>)
    ensures |r| == |segments|
    ensures forall i :: 0 <= i < |r| ==> r[i] == CamelCase(segments[i])
  {
    if |segments| == 0 then [] else [CamelCase(segments[0])] + MapCamelCase(segments[1..])
  }

  /** The property names of the global path, segment by segment: the
      specifier (without its scope marker) is split on `/` and every segment
      is camel-cased; the Angular scope contributes the segment `ng`. */
  function GlobalSegments(specifier: string): seq<string>
  {
    if HasAngularScope(specifier) then ["ng"] + MapCamelCase(Split(specifier[|AngularScope|..], '/'))
    else if |specifier| > 0 && specifier[0] == '@' then MapCamelCase(Split(specifier[1..], '/'))
    else MapCamelCase(Split(specifier, '/'))
  }

  lemma DropHyphensAppend(a: string, t: string)
    requires |DropHyphens(a)| > 0
    ensures DropHyphens(a + t) == DropHyphens(a) + t
  {
    if |a| > 0 && a[0] == '-' {
      assert (a + t)[1..] == a[1..] + t;
      DropHyphensAppend(a[1..], t);
    }
  }

  lemma DropHyphensAllHyphens(a: string, t: string)
    requires |DropHyphens(a)| == 0
    ensures DropHyphens(a + t) == DropHyphens(t)
  {
    if |a| > 0 {
      assert (a + t)[1..] == a[1..] + t;
      DropHyphensAllHyphens(a[1..], t);
    } else {
      assert a + t == t;
    }
  }

  /** After a hyphen run, camel-casing upper-cases the next character. */
  lemma CamelCaseHyphenRun(s: string)
    requires |s| > 0 && s[0] == '-'
    ensures var rest := DropHyphens(s);
      CamelCase(s) == if |rest| == 0 then "" else [ToUpper(rest[0])] + CamelCase(rest[1..])
  {
  }

  /** Camel-casing distributes over a `.`: a hyphen run just before the dot
      disappears and the dot itself is kept. */
  lemma {:induction false} CamelCaseAroundDot(a: string, b: string)
    ensures CamelCase(a + "." + b) == CamelCase(a) + "." + CamelCase(b)
    decreases |a|
  {
    var s := a + "." + b;
    if |a| == 0 {
      assert s == ['.'] + b;
      CamelCaseCons('.', b);
    } else if a[0] != '-' {
      assert s == [a[0]] + (a[1..] + "." + b);
      CamelCaseCons(a[0], a[1..] + "." + b);
      CamelCaseAroundDot(a[1..], b);
      assert a == [a[0]] + a[1..];
      CamelCaseCons(a[0], a[1..]);
    } else if |DropHyphens(a)| == 0 {
      CamelCaseTrailingHyphens(a, b);
    } else {
      var rest := DropHyphens(a);
      CamelCaseAroundDot(rest[1..], b);
      CamelCaseInnerHyphens(a, b);
    }
  }

  lemma CamelCaseTrailingHyphens(a: string, b: string)
    requires |a| > 0 && a[0] == '-' && |DropHyphens(a)| == 0
    ensures CamelCase(a + "." + b) == CamelCase(a) + "." + CamelCase(b)
  {
    var s := a + ("." + b);
    assert a + "." + b == s;
    DropHyphensAllHyphens(a, "." + b);
    var d := DropHyphens("." + b);
    assert d == "." + b;
    assert d[0] == '.' && d[1..] == b;
    CamelCaseHyphenRun(s);
    CamelCaseHyphenRun(a);
  }

  /** A hyphen run that ends inside `a` is camel-cased the same whatever
      follows `a`. */
  lemma CamelCaseHyphenRunAppend(a: string, t: string)
    requires |a| > 0 && a[0] == '-' && |DropHyphens(a)| > 0
    ensures CamelCase(a + t) == [ToUpper(DropHyphens(a)[0])] + CamelCase(DropHyphens(a)[1..] + t)
  {
    var rest := DropHyphens(a);
    DropHyphensAppend(a, t);
    var d := DropHyphens(a + t);
    assert d[0] == rest[0];
    assert d[1..] == rest[1..] + t;
    CamelCaseHyphenRun(a + t);
  }

  lemma CamelCaseInnerHyphens(a: string, b: string)
    requires |a| > 0 && a[0] == '-' && |DropHyphens(a)| > 0
    requires CamelCase(DropHyphens(a)[1..] + "." + b)
      == CamelCase(DropHyphens(a)[1..]) + "." + CamelCase(b)
    ensures CamelCase(a + "." + b) == CamelCase(a) + "." + CamelCase(b)
  {
    var rest := DropHyphens(a);
    var tail := rest[1..];
    var u := [ToUpper(rest[0])];
    assert a + "." + b == a + ("." + b);
    assert tail + "." + b == tail + ("." + b);
    CamelCaseHyphenRunAppend(a, "." + b);
    CamelCaseHyphenRun(a);
    ChainDot(CamelCase(a + "." + b), CamelCase(a), u, CamelCase(tail + "." + b), CamelCase(tail), CamelCase(b));
  }

  /** The string step of `CamelCaseInnerHyphens`. */
  lemma ChainDot(whole: string, left: string, u: string, tailDot: string, tail: string, right: string)
    requires whole == u + tailDot && left == u + tail && tailDot == tail + "." + right
    ensures whole == left + "." + right
  {
  }

  /** Camel-casing a dotted path camel-cases each of its segments. */
  lemma {:induction false} CamelCaseJoin(segments: seq<string>)
    ensures CamelCase(Join(segments, ".")) == Join(MapCamelCase(segments), ".")
  {
    if |segments| > 1 {
      JoinCons(segments[0], segments[1..], ".");
      assert segments == [segments[0]] + segments[1..];
      CamelCaseAroundDot(segments[0], Join(segments[1..], "."));
      CamelCaseJoin(segments[1..]);
      var m := MapCamelCase(segments);
      assert m == [m[0]] + m[1..];
      assert m[1..] == MapCamelCase(segments[1..]);
      JoinCons(m[0], m[1..], ".");
    } else if |segments| == 1 {
      assert MapCamelCase(segments) == [CamelCase(segments[0])];
    }
  }

  /** A character other than a hyphen is copied as it is. */
  lemma CamelCaseCons(c: char, s: string)
    requires c != '-'
    ensures CamelCase([c] + s) == [c] + CamelCase(s)
  {
    assert ([c] + s)[0] == c;
    assert ([c] + s)[1..] == s;
  }

  lemma CamelCaseNgPrefix(s: string)
    ensures CamelCase("ng." + s) == "ng." + CamelCase(s)
  {
    CamelCaseCons('.', s);
    assert "." + s == ['.'] + s;
    CamelCaseCons('g', "." + s);
    assert "g." + s == ['g'] + ("." + s);
    CamelCaseCons('n', "g." + s);
    assert "ng." + s == ['n'] + ("g." + s);
  }

  /** The character-level rewriting produces exactly the segment-wise path:
      the specifier's segments, camel-cased, joined by dots. */
  lemma {:induction false} GlobalIdentifierBySegments(specifier: string)
    ensures GlobalIdentifier(specifier) == Join(GlobalSegments(specifier), ".")
  {
    if HasAngularScope(specifier) {
      var rest := specifier[|AngularScope|..];
      var u := "ng." + rest;
      assert Unscoped(specifier) == u;
      assert ReplaceChar(u, '/', '.') == "ng." + ReplaceChar(rest, '/', '.');
      CamelCaseNgPrefix(ReplaceChar(rest, '/', '.'));
      ReplaceIsSplitJoin(rest, '/', '.');
      CamelCaseJoin(Split(rest, '/'));
      JoinCons("ng", MapCamelCase(Split(rest, '/')), ".");
    } else if |specifier| > 0 && specifier[0] == '@' {
      ReplaceIsSplitJoin(specifier[1..], '/', '.');
      CamelCaseJoin(Split(specifier[1..], '/'));
    } else {
      ReplaceIsSplitJoin(specifier, '/', '.');
      CamelCaseJoin(Split(specifier, '/'));
    }
  }

  /** A hyphen-free prefix is copied as it is. */
  lemma {:induction false} CamelCasePlainPrefix(a: string, b: string)
    requires '-' !in a
    ensures CamelCase(a + b) == a + CamelCase(b)
  {
    if |a| > 0 {
      assert a + b == [a[0]] + (a[1..] + b);
      CamelCaseCons(a[0], a[1..] + b);
      CamelCasePlainPrefix(a[1..], b);
    } else {
      assert a + b == b;
    }
  }

  /** A single hyphen before a lower-case letter turns it into upper case. */
  lemma CamelCaseHump(c: char, b: string)
    requires 'a' <= c <= 'z'
    ensures CamelCase(['-', c] + b) == [ToUpper(c)] + CamelCase(b)
  {
    var s := ['-', c] + b;
    assert s[1..] == [c] + b;
    assert DropHyphens(s) == DropHyphens([c] + b) == [c] + b;
    assert ([c] + b)[1..] == b;
  }

  /** Under the Angular scope the path starts with `ng`. */
  lemma AngularScoped(rest: string)
    ensures GlobalIdentifier(AngularScope + rest) == "ng." + CamelCase(ReplaceChar(rest, '/', '.'))
  {
    var spec := AngularScope + rest;
    assert spec[..|AngularScope|] == AngularScope;
    assert spec[|AngularScope|..] == rest;
    ReplaceCharAppend("ng.", rest, '/', '.');
    assert ReplaceChar("ng.", '/', '.') == "ng.";
    CamelCaseNgPrefix(ReplaceChar(rest, '/', '.'));
  }

  /** Under any other scope the `@` is simply dropped. */
  lemma OtherScoped(rest: string)
    requires !HasAngularScope("@" + rest)
    ensures GlobalIdentifier("@" + rest) == CamelCase(ReplaceChar(rest, '/', '.'))
  {
    assert ("@" + rest)[1..] == rest;
  }

  /** `a/b` becomes `a.b` when neither part has a slash of its own. */
  lemma ReplaceSlashOnce(a: string, b: string)
    requires '/' !in a && '/' !in b
    ensures ReplaceChar(a + "/" + b, '/', '.') == a + "." + b
  {
    ReplaceCharAppend(a + "/", b, '/', '.');
    ReplaceCharAppend(a, "/", '/', '.');
    ReplaceCharAbsent(a, '/', '.');
    ReplaceCharAbsent(b, '/', '.');
  }

  /** A hyphen between two words upper-cases the first letter of the second. */
  lemma CamelCaseHumpAfter(a: string, c: char, w: string)
    requires '-' !in a && 'a' <= c <= 'z'
    ensures CamelCase(a + ['-', c] + w) == a + [ToUpper(c)] + CamelCase(w)
  {
    assert a + ['-', c] + w == a + (['-', c] + w);
    CamelCasePlainPrefix(a, ['-', c] + w);
    CamelCaseHump(c, w);
  }

  lemma CamelCaseWord(w: string)
    requires '-' !in w
    ensures CamelCase(w) == w
  {
    CamelCasePlainPrefix(w, "");
    assert w + "" == w;
  }

  lemma DynamicCamel()
    ensures CamelCase("rowser" + "-dynamic") == "rowser" + "Dynamic"
  {
    assert "rowser" + "-dynamic" == "rowser" + ['-', 'd'] + "ynamic";
    CamelCaseHumpAfter("rowser", 'd', "ynamic");
    CamelCaseWord("ynamic");
  }

  lemma PlatformBrowserDynamicCamel()
    ensures CamelCase("platform" + "-browser" + "-dynamic") == "platform" + "Browser" + "Dynamic"
  {
    var x := "rowser" + "-dynamic";
    DynamicCamel();
    CamelCaseHumpAfter("platform", 'b', x);
    assert "platform" + "-browser" + "-dynamic" == "platform" + ['-', 'b'] + x;
    assert "platform" + [ToUpper('b')] + ("rowser" + "Dynamic") == "platform" + "Browser" + "Dynamic";
  }

  /** An Angular package path without slashes maps to `ng.` and its
      camel-cased name. */
  lemma AngularPackageExample(rest: string, camel: string)
    requires '/' !in rest && CamelCase(rest) == camel
    ensures GlobalIdentifier(AngularScope + rest) == "ng." + camel
  {
    AngularScoped(rest);
    ReplaceCharAbsent(rest, '/', '.');
  }

  lemma PlatformBrowserDynamicExample()
    ensures GlobalIdentifier(AngularScope + ("platform" + "-browser" + "-dynamic"))
      == "ng." + ("platform" + "Browser" + "Dynamic")
  {
    var rest := "platform" + "-browser" + "-dynamic";
    assert '/' !in "platform" && '/' !in "-browser" && '/' !in "-dynamic";
    assert '/' !in rest;
    PlatformBrowserDynamicCamel();
    AngularPackageExample(rest, "platform" + "Browser" + "Dynamic");
  }

  lemma AngularFooCamel()
    ensures CamelCase("angular-foo" + "." + "package") == "angular" + "Foo" + "." + "package"
  {
    assert "angular-foo" + "." + "package" == "angular" + ['-', 'f'] + ("oo" + "." + "package");
    CamelCaseHumpAfter("angular", 'f', "oo" + "." + "package");
    CamelCaseWord("oo" + "." + "package");
  }

  lemma AngularFooExample()
    ensures GlobalIdentifier("@" + "angular-foo" + "/" + "package") == "angular" + "Foo" + "." + "package"
  {
    var rest := "angular-foo" + "/" + "package";
    assert ("@" + rest)[8] == '-';
    assert "@" + "angular-foo" + "/" + "package" == "@" + rest;
    OtherScoped(rest);
    ReplaceSlashOnce("angular-foo", "package");
    AngularFooCamel();
  }

  /** A specifier whose path has no slash and no hyphen. */
  lemma AngularWordExample(w: string)
    requires '/' !in w && '-' !in w
    ensures GlobalIdentifier(AngularScope + w) == "ng." + w
  {
    AngularScoped(w);
    ReplaceCharAbsent(w, '/', '.');
    CamelCaseWord(w);
  }

  lemma NgrxExample()
    ensures GlobalIdentifier("@" + "ngrx" + "/" + "store") == "ngrx" + "." + "store"
  {
    var ngrx := "ngrx" + "/" + "store";
    assert ("@" + ngrx)[1] == 'n';
    assert "@" + "ngrx" + "/" + "store" == "@" + ngrx;
    OtherScoped(ngrx);
    ReplaceSlashOnce("ngrx", "store");
    CamelCaseWord("ngrx" + "." + "store");
  }

  lemma CommonTestingExample()
    ensures GlobalIdentifier(AngularScope + "common" + "/" + "testing") == "ng." + "common" + "." + "testing"
  {
    var testing := "common" + "/" + "testing";
    assert AngularScope + "common" + "/" + "testing" == AngularScope + testing;
    AngularScoped(testing);
    ReplaceSlashOnce("common", "testing");
    CamelCaseWord("common" + "." + "testing");
  }

  /** The specifiers exercised by the formatter's tests, with the global
      paths they expect, one lemma per specifier. Each `...Spelling` lemma
      only restates the two literals as the pieces the examples above use. */
  lemma CoreSpelling(specifier: string, global: string)
    requires specifier == "@angular/core" && global == "global.ng.core"
    ensures specifier == AngularScope + "core" && global == "global." + ("ng." + "core")
  {
  }

  lemma CoreGlobal(specifier: string, global: string)
    requires specifier == "@angular/core" && global == "global.ng.core"
    ensures GlobalAccess(specifier) == global
  {
    CoreSpelling(specifier, global);
    AngularWordExample("core");
  }

  lemma CommonSpelling(specifier: string, global: string)
    requires specifier == "@angular/common" && global == "global.ng.common"
    ensures specifier == AngularScope + "common" && global == "global." + ("ng." + "common")
  {
  }

  lemma CommonGlobal(specifier: string, global: string)
    requires specifier == "@angular/common" && global == "global.ng.common"
    ensures GlobalAccess(specifier) == global
  {
    CommonSpelling(specifier, global);
    AngularWordExample("common");
  }

  lemma NgrxStoreSpelling(specifier: string, global: string)
    requires specifier == "@ngrx/store" && global == "global.ngrx.store"
    ensures specifier == "@" + "ngrx" + "/" + "store" && global == "global." + ("ngrx" + "." + "store")
  {
  }

  lemma NgrxStoreGlobal(specifier: string, global: string)
    requires specifier == "@ngrx/store" && global == "global.ngrx.store"
    ensures GlobalAccess(specifier) == global
  {
    NgrxStoreSpelling(specifier, global);
    NgrxExample();
  }

  lemma PlatformBrowserDynamicSpelling(specifier: string)
    requires specifier == "@angular/platform-browser-dynamic"
    ensures specifier == AngularScope + ("platform" + "-browser" + "-dynamic")
  {
  }

  lemma PlatformBrowserDynamicGlobalSpelling(global: string)
    requires global == "global.ng.platformBrowserDynamic"
    ensures global == "global." + ("ng." + ("platform" + "Browser" + "Dynamic"))
  {
  }

  lemma PlatformBrowserDynamicGlobal(specifier: string, global: string)
    requires specifier == "@angular/platform-browser-dynamic"
    requires global == "global.ng.platformBrowserDynamic"
    ensures GlobalAccess(specifier) == global
  {
    PlatformBrowserDynamicSpelling(specifier);
    PlatformBrowserDynamicGlobalSpelling(global);
    PlatformBrowserDynamicExample();
  }

  lemma CommonTestingSpelling(specifier: string, global: string)
    requires specifier == "@angular/common/testing" && global == "global.ng.common.testing"
    ensures specifier == AngularScope + "common" + "/" + "testing"
    ensures global == "global." + ("ng." + "common" + "." + "testing")
  {
  }

  lemma CommonTestingGlobal(specifier: string, global: string)
    requires specifier == "@angular/common/testing" && global == "global.ng.common.testing"
    ensures GlobalAccess(specifier) == global
  {
    CommonTestingSpelling(specifier, global);
    CommonTestingExample();
  }

  lemma AngularFooSpelling(specifier: string, global: string)
    requires specifier == "@angular-foo/package" && global == "global.angularFoo.package"
    ensures specifier == "@" + "angular-foo" + "/" + "package"
    ensures global == "global." + ("angular" + "Foo" + "." + "package")
  {
  }

  lemma AngularFooGlobal(specifier: string, global: string)
    requires specifier == "@angular-foo/package" && global == "global.angularFoo.package"
    ensures GlobalAccess(specifier) == global
  {
    AngularFooSpelling(specifier, global);
    AngularFooExample();
  }
}

=== FILE: import_manager.dfy ===
/** The part of the import manager the formatter relies on: every distinct
    module it is asked about gets a fresh namespace qualifier `i<k>` (the
    prefix `i` is the one the formatter is set up with), numbered in order of
    first use and reused for every later symbol from the same module. */
module ImportManagement {
  import opened Outcomes
  import opened Decimal

  const QualifierPrefix: string := "i"

  /** The qualifier given to the `k`-th distinct module. */
  function QualifierFor(k: nat): (r: string)
    ensures |r| > |QualifierPrefix| && r[..|QualifierPrefix|] == QualifierPrefix
    ensures AllDigits(r[|QualifierPrefix|..])
  {
    QualifierPrefix + NatToString(k)
  }

  /** Different modules never share a qualifier. */
  lemma QualifierInjective(a: nat, b: nat)
    requires QualifierFor(a) == QualifierFor(b)
    ensures a == b
  {
    assert QualifierFor(a)[|QualifierPrefix|..] == NatToString(a);
    assert QualifierFor(b)[|QualifierPrefix|..] == NatToString(b);
    NatToStringInjective(a, b);
  }

  /** The modules imported so far, in order of first use; `modules[k]` is
      bound to `QualifierFor(k)`. */
  datatype ImportManager = ImportManager(modules: seq<string>)

  /** A symbol reached through the namespace import of its module. */
  datatype NamedImport = NamedImport(moduleImport: string, symbol: string)

  predicate Distinct(s: seq<string>)
  {
    forall i, j :: 0 <= i < j < |s| ==> s[i] != s[j]
  }

  /** The position of the first occurrence of `x` in `s`, if any. */
  function IndexOf(s: seq<string>, x: string): (r: Option<nat>)
    ensures r.Some? ==> r.value < |s| && s[r.value] == x
    ensures r.Some? ==> forall i :: 0 <= i < r.value ==> s[i] != x
    ensures r.None? ==> forall i :: 0 <= i < |s| ==> s[i] != x
  {
    if |s| == 0 then None
    else if s[0] == x then Some(0)
    else match IndexOf(s[1..], x)
      case None => None
      case Some(k) => Some(k + 1)
  }

  /** The qualifier already bound to `moduleName`, if any. */
  function QualifierOf(m: ImportManager, moduleName: string): (r: Option<string>)
    ensures r.Some? <==> exists k :: 0 <= k < |m.modules| && m.modules[k] == moduleName
  {
    match IndexOf(m.modules, moduleName)
    case None => None
    case Some(k) => Some(QualifierFor(k))
  }

  /** Asks for `symbol` of `moduleName`: an already known module keeps its
      qualifier, an unknown one is bound to the next fresh qualifier. */
  function GenerateNamedImport(m: ImportManager, moduleName: string, symbol: string)
    : (r: (ImportManager, NamedImport))
    ensures r.1.symbol == symbol
    ensures QualifierOf(r.0, moduleName) == Some(r.1.moduleImport)
    ensures QualifierOf(m, moduleName).Some? ==> r.0 == m
    ensures QualifierOf(m, moduleName).None? ==> r.0.modules == m.modules + [moduleName]
    ensures Distinct(m.modules) ==> Distinct(r.0.modules)
    ensures Extends(r.0, m)
  {
    match IndexOf(m.modules, moduleName)
    case Some(k) => (m, NamedImport(QualifierFor(k), symbol))
    case None =>
      var grown := ImportManager(m.modules + [moduleName]);
      assert IndexOf(grown.modules, moduleName) == Some(|m.modules|) by {
        IndexOfAppended(m.modules, moduleName);
      }
      (grown, NamedImport(QualifierFor(|m.modules|), symbol))
  }

  lemma {:induction false} IndexOfAppended(s: seq<string>, x: string)
    requires forall i :: 0 <= i < |s| ==> s[i] != x
    ensures IndexOf(s + [x], x) == Some(|s|)
  {
    if |s| > 0 {
      assert (s + [x])[1..] == s[1..] + [x];
      IndexOfAppended(s[1..], x);
    }
  }

  /** Asking twice for the same module yields the same qualifier and binds
      nothing new the second time. */
  lemma GenerateReuses(m: ImportManager, moduleName: string, a: string, b: string)
    ensures var (m1, first) := GenerateNamedImport(m, moduleName, a);
            var (m2, second) := GenerateNamedImport(m1, moduleName, b);
            m2 == m1 && second.moduleImport == first.moduleImport
  {
  }

  /** In a manager whose modules are distinct, distinct modules are reached
      through distinct qualifiers. */
  lemma QualifiersDistinct(m: ImportManager, x: string, y: string)
    requires Distinct(m.modules)
    requires QualifierOf(m, x).Some? && QualifierOf(m, y).Some?
    requires x != y
    ensures QualifierOf(m, x) != QualifierOf(m, y)
  {
    var i := IndexOf(m.modules, x).value;
    var j := IndexOf(m.modules, y).value;
    if QualifierFor(i) == QualifierFor(j) {
      QualifierInjective(i, j);
    }
  }

  /** One manager's bindings are extended by another's. */
  predicate Extends(later: ImportManager, earlier: ImportManager)
  {
    |earlier.modules| <= |later.modules| && later.modules[..|earlier.modules|] == earlier.modules
  }

  lemma {:induction false} IndexOfExtended(s: seq<string>, t: seq<string>, x: string)
    requires IndexOf(s, x).Some?
    ensures IndexOf(s + t, x) == IndexOf(s, x)
  {
    if s[0] != x {
      assert (s + t)[1..] == s[1..] + t;
      IndexOfExtended(s[1..], t, x);
    }
  }

  /** A binding, once made, is never changed by later requests. */
  lemma QualifierStable(earlier: ImportManager, later: ImportManager, moduleName: string)
    requires Extends(later, earlier)
    requires QualifierOf(earlier, moduleName).Some?
    ensures QualifierOf(later, moduleName) == QualifierOf(earlier, moduleName)
  {
    var rest := later.modules[|earlier.modules|..];
    assert later.modules == earlier.modules + rest;
    IndexOfExtended(earlier.modules, rest, moduleName);
  }

  /** The first two qualifiers handed out. */
  lemma QualifierZeroOne()
    ensures QualifierFor(0) == "i0" && QualifierFor(1) == "i1"
  {
    assert NatToString(0) == "0";
    assert NatToString(1) == "1";
  }
}

=== FILE: module_paths.dfy ===
/** The path arithmetic `addExports` uses to name the module a re-exported
    symbol comes from: strip the `.js` extension, take the directory of the
    entry point and express the target relative to it, prefixed with `./`.
    Absolute paths are `/`-separated strings; the arithmetic works on their
    segments. */
module Paths {
  import opened Text

  const JsExtension: string := ".js"

  predicate EndsWithJs(p: string)
  {
    |p| >= |JsExtension| && p[|p| - |JsExtension|..] == JsExtension
  }

  /** `p` without its `.js` extension; other paths are returned unchanged. */
  function StripJs(p: string): (r: string)
    ensures EndsWithJs(p) ==> r + JsExtension == p
    ensures !EndsWithJs(p) ==> r == p
  {
    if EndsWithJs(p) then p[..|p| - |JsExtension|] else p
  }

  /** Adding `.js` and stripping it again gives the path back. */
  lemma StripJsAdded(p: string)
    ensures StripJs(p + JsExtension) == p
  {
    var q := p + JsExtension;
    assert q[|q| - |JsExtension|..] == JsExtension;
  }

  /** The segments of the directory holding `p`: all but the last. */
  function DirSegments(p: string): (r: seq<string>)
    ensures |r| + 1 == |Split(p, '/')|
    ensures r == Split(p, '/')[..|r|]
  {
    var segments := Split(p, '/');
    segments[..|segments| - 1]
  }

  /** `n` copies of the parent-directory segment. */
  function Ups(n: nat): (r: seq<string>)
    ensures |r| == n
    ensures forall i :: 0 <= i < n ==> r[i] == ".."
  {
    if n == 0 then [] else [".."] + Ups(n - 1)
  }

  /** The segments leading from directory `from` to `to`: climb out of what
      `from` does not share with `to`, then descend into the rest of `to`. */
  function RelativeSegments(from: seq<string>, to: seq<string>): seq<string>
  {
    if |from| > 0 && |to| > 0 && from[0] == to[0] then RelativeSegments(from[1..], to[1..])
    else Ups(|from|) + to
  }

  /** Follows `rel` from directory `base`: `..` leaves the current directory
      (staying at the root when there is none), anything else enters it. */
  function Resolve(base: seq<string>, rel: seq<string>): seq<string>
    decreases |rel|
  {
    if |rel| == 0 then base
    else if rel[0] == ".." then Resolve(if |base| == 0 then base else base[..|base| - 1], rel[1..])
    else Resolve(base + [rel[0]], rel[1..])
  }

  /** The module specifier of `target` as seen from the entry point whose
      extension-less path is `entryBase`. */
  function RelativeSpecifier(entryBase: string, target: string): (r: string)
    ensures StartsWith(r, "./")
  {
    "./" + Join(RelativeSegments(DirSegments(entryBase), Split(StripJs(target), '/')), "/")
  }

  predicate NoUps(s: seq<string>)
  {
    forall i :: 0 <= i < |s| ==> s[i] != ".."
  }

  lemma {:induction false} ResolveDescends(base: seq<string>, t: seq<string>)
    requires NoUps(t)
    ensures Resolve(base, t) == base + t
    decreases |t|
  {
    if |t| > 0 {
      ResolveDescends(base + [t[0]], t[1..]);
      assert base + [t[0]] + t[1..] == base + t;
    }
  }

  lemma {:induction false} ResolveClimbs(p: seq<string>, q: seq<string>, t: seq<string>)
    ensures Resolve(p + q, Ups(|q|) + t) == Resolve(p, t)
    decreases |q|
  {
    if |q| > 0 {
      var rel := Ups(|q|) + t;
      assert rel[0] == "..";
      assert rel[1..] == Ups(|q| - 1) + t;
      var pq := p + q;
      assert pq[..|pq| - 1] == p + q[..|q| - 1];
      ResolveClimbs(p, q[..|q| - 1], t);
    } else {
      assert p + q == p;
      assert Ups(0) + t == t;
    }
  }

  /** Following the relative path from `from` leads to `to`, whenever `to`
      itself never climbs; a common directory prefix `p` is kept. */
  lemma {:induction false} RelativeResolvesUnder(p: seq<string>, from: seq<string>, to: seq<string>)
    requires NoUps(to)
    ensures Resolve(p + from, RelativeSegments(from, to)) == p + to
    decreases |from|
  {
    if |from| > 0 && |to| > 0 && from[0] == to[0] {
      assert p + from == (p + [from[0]]) + from[1..];
      RelativeResolvesUnder(p + [from[0]], from[1..], to[1..]);
      assert (p + [from[0]]) + to[1..] == p + to;
    } else {
      ResolveClimbs(p, from, to);
      ResolveDescends(p, to);
    }
  }

  lemma RelativeResolves(from: seq<string>, to: seq<string>)
    requires NoUps(to)
    ensures Resolve(from, RelativeSegments(from, to)) == to
  {
    RelativeResolvesUnder([], from, to);
    assert [] + from == from;
    assert [] + to == to;
  }

  lemma {:induction false} RelativeBelow(d: seq<string>, t: seq<string>)
    ensures RelativeSegments(d, d + t) == t
  {
    if |d| > 0 {
      assert (d + t)[0] == d[0];
      assert (d + t)[1..] == d[1..] + t;
      RelativeBelow(d[1..], t);
    }
  }

  /** A module below the entry point's directory is named by its path
      under that directory, without the extension: `./a` for `a.js` and
      `./foo/b` for `foo/b.js`. */
  lemma SpecifierBelowEntryDir(dir: string, entryName: string, sub: string)
    requires '/' !in entryName
    ensures RelativeSpecifier(dir + "/" + entryName, dir + "/" + sub + JsExtension) == "./" + sub
  {
    SplitAround(dir, entryName, '/');
    SplitAbsent(entryName, '/');
    assert DirSegments(dir + "/" + entryName) == Split(dir, '/');
    StripJsAdded(dir + "/" + sub);
    SplitAround(dir, sub, '/');
    RelativeBelow(Split(dir, '/'), Split(sub, '/'));
    SplitJoin(sub, '/');
  }
}

=== FILE: outcomes.dfy ===
/** Failure-carrying values used throughout the model. */
module Outcomes {

  /** A value that may be absent; stands for a nullable reference. */
  datatype Option<+T> = None | Some(value: T)

  /** The outcome of a rewrite that may throw: `Err` carries the message of
      the error the formatter raises. */
  datatype Result<+T> = Ok(value: T) | Err(message: string)
}

=== FILE: statement_printer.dfy ===
/** `printStatement` for the statements the formatter is given to print: a
    variable declaration whose value is a number, boolean or string literal
    comes out as an ES5 `var` declaration, whatever its modifiers, with the
    string in double quotes. A reader for that form is given as well, so that
    the printed text can be shown to say exactly what the statement says. */
module StatementPrinter {
  import opened Outcomes
  import opened Text
  import opened Decimal

  datatype Literal =
    | NumberLiteral(number: int)
    | BooleanLiteral(flag: bool)
    | StringLiteral(text: string)

  /** The modifiers a declaration may carry; ES5 output has no place for any
      of them. */
  datatype Modifier = Final | Private | Exported | Static

  datatype DeclareVarStmt = DeclareVarStmt(name: string, value: Literal, modifiers: set<Modifier>)

  /** How a character is written inside a double-quoted string. */
  function EscapeChar(c: char): (r: string)
    ensures |r| == 1 <==> c != '\\' && c != '"' && c != '\n'
    ensures |r| == 1 ==> r == [c]
    ensures |r| == 2 ==> r[0] == '\\'
    ensures |r| == 1 || |r| == 2
  {
    if c == '\\' then "\\\\"
    else if c == '"' then "\\\""
    else if c == '\n' then "\\n"
    else [c]
  }

  /** The body of the double-quoted string literal for `s`. */
  function Escape(s: string): (r: string)
    ensures |r| >= |s|
  {
    if |s| == 0 then "" else EscapeChar(s[0]) + Escape(s[1..])
  }

  /** An escaped string never holds a bare `"` or a newline. */
  lemma {:induction false} EscapeHasNoBareQuote(s: string)
    ensures '\n' !in Escape(s)
    ensures forall i :: 0 <= i < |Escape(s)| && Escape(s)[i] == '"' ==> i > 0 && Escape(s)[i - 1] == '\\'
  {
    if |s| > 0 {
      EscapeHasNoBareQuote(s[1..]);
      var e := EscapeChar(s[0]);
      var rest := Escape(s[1..]);
      assert Escape(s) == e + rest;
      forall i | 0 <= i < |e + rest| && (e + rest)[i] == '"'
        ensures i > 0 && (e + rest)[i - 1] == '\\'
      {
        if i >= |e| {
          assert rest[i - |e|] == '"';
        }
      }
    }
  }

  function PrintLiteral(l: Literal): (r: string)
    ensures |r| > 0
  {
    match l
    case NumberLiteral(n) => IntToString(n)
    case BooleanLiteral(b) => if b then "true" else "false"
    case StringLiteral(s) => "\"" + Escape(s) + "\""
  }

  /** `printStatement`: `var <name> = <literal>;`. */
  function PrintStatement(s: DeclareVarStmt): (r: string)
    ensures StartsWith(r, "var " + s.name + " = ")
    ensures |r| > 0 && r[|r| - 1] == ';'
  {
    var r := "var " + s.name + " = " + PrintLiteral(s.value) + ";";
    assert r[..|"var " + s.name + " = "|] == "var " + s.name + " = ";
    r
  }

  /** Reads back the body of a double-quoted string; a bare `"`, a dangling
      `\` or an unknown escape is rejected. */
  function Unescape(s: string): (r: Option<string>)
    decreases |s|
  {
    if |s| == 0 then Some("")
    else if s[0] == '"' then None
    else if s[0] != '\\' then
      match Unescape(s[1..])
      case None => None
      case Some(rest) => Some([s[0]] + rest)
    else if |s| < 2 then None
    else
      var c := if s[1] == 'n' then Some('\n') else if s[1] == '\\' || s[1] == '"' then Some(s[1]) else None;
      match c
      case None => None
      case Some(ch) =>
        match Unescape(s[2..])
        case None => None
        case Some(rest) => Some([ch] + rest)
  }

  lemma {:induction false} UnescapeEscape(s: string)
    ensures Unescape(Escape(s)) == Some(s)
  {
    if |s| > 0 {
      var e := EscapeChar(s[0]);
      var rest := Escape(s[1..]);
      UnescapeEscape(s[1..]);
      assert Escape(s) == e + rest;
      assert (e + rest)[|e|..] == rest;
      assert [s[0]] + s[1..] == s;
      if |e| == 2 {
        assert (e + rest)[2..] == rest;
      } else {
        assert (e + rest)[1..] == rest;
      }
    }
  }

  /** Reads a literal as printed. */
  function ParseLiteral(t: string): Option<Literal>
  {
    if t == "true" then Some(BooleanLiteral(true))
    else if t == "false" then Some(BooleanLiteral(false))
    else if |t| >= 2 && t[0] == '"' && t[|t| - 1] == '"' then
      match Unescape(t[1..|t| - 1])
      case None => None
      case Some(s) => Some(StringLiteral(s))
    else
      match ParseInt(t)
      case None => None
      case Some(n) => Some(NumberLiteral(n))
  }

  lemma LiteralRoundTrip(l: Literal)
    ensures ParseLiteral(PrintLiteral(l)) == Some(l)
  {
    match l
    case NumberLiteral(n) =>
      var t := IntToString(n);
      IntRoundTrip(n);
      assert t[0] == '-' || IsDigit(t[0]);
      assert t != "true" && t != "false" && t[0] != '"';
    case BooleanLiteral(_) =>
    case StringLiteral(s) =>
      var t := "\"" + Escape(s) + "\"";
      assert t[1..|t| - 1] == Escape(s);
      UnescapeEscape(s);
  }

  /** A name the reader can find the end of. */
  predicate IsName(name: string)
  {
    |name| > 0 && ' ' !in name
  }

  /** The position of the first blank in `s`, or `|s|`. */
  function FirstBlank(s: string): (r: nat)
    ensures r <= |s| && ' ' !in s[..r]
    ensures r < |s| ==> s[r] == ' '
  {
    if |s| == 0 then 0
    else if s[0] == ' ' then 0
    else
      var r := 1 + FirstBlank(s[1..]);
      assert s[..r] == [s[0]] + s[1..][..r - 1];
      r
  }

  lemma FirstBlankAfterName(name: string, rest: string)
    requires ' ' !in name && |rest| > 0 && rest[0] == ' '
    ensures FirstBlank(name + rest) == |name|
  {
    var i := FirstBlank(name + rest);
    assert (name + rest)[|name|] == ' ';
  }

  /** Reads `var <name> = <literal>;` back into its name and value. */
  function ParseStatement(t: string): Option<(string, Literal)>
  {
    if !StartsWith(t, "var ") then None
    else
      var rest := t[4..];
      var i := FirstBlank(rest);
      var after := rest[i..];
      if i == 0 || !StartsWith(after, " = ") || |after| < 4 || after[|after| - 1] != ';' then None
      else
        match ParseLiteral(after[3..|after| - 1])
        case None => None
        case Some(l) => Some((rest[..i], l))
  }

  /** The text after the name: ` = <literal>;`. */
  lemma AfterNameParts(lit: string)
    ensures var after := " = " + lit + ";";
            StartsWith(after, " = ") && |after| >= 4 && after[|after| - 1] == ';'
            && after[3..|after| - 1] == lit && after[0] == ' '
  {
    var after := " = " + lit + ";";
    assert after[..3] == " = ";
  }

  /** Reading `var <name><after>` finds the name and reads the rest. */
  lemma ParseAfterName(name: string, lit: string)
    requires IsName(name)
    ensures ParseStatement("var " + (name + (" = " + lit + ";"))) ==
      match ParseLiteral(lit)
      case None => None
      case Some(l) => Some((name, l))
  {
    var after := " = " + lit + ";";
    var t := "var " + (name + after);
    AfterNameParts(lit);
    assert StartsWith(t, "var ") by {
      assert t[..4] == "var ";
    }
    assert t[4..] == name + after;
    FirstBlankAfterName(name, after);
    assert (name + after)[|name|..] == after;
    assert (name + after)[..|name|] == name;
  }

  /** Reading a printed declaration gives back its name and value: the
      printer loses only the modifiers. */
  lemma PrintParseRoundTrip(s: DeclareVarStmt)
    requires IsName(s.name)
    ensures ParseStatement(PrintStatement(s)) == Some((s.name, s.value))
  {
    var lit := PrintLiteral(s.value);
    PrintedParts(s.name, lit);
    ParseAfterName(s.name, lit);
    LiteralRoundTrip(s.value);
  }

  lemma PrintedParts(name: string, lit: string)
    ensures "var " + name + " = " + lit + ";" == "var " + (name + (" = " + lit + ";"))
  {
  }

  /** The modifiers never reach the output. */
  lemma ModifiersDropped(s: DeclareVarStmt, modifiers: set<Modifier>)
    ensures PrintStatement(s.(modifiers := modifiers)) == PrintStatement(s)
  {
  }

  /** Printing a number declaration: `var foo = 42;`. */
  lemma PrintNumberExample()
    ensures PrintStatement(DeclareVarStmt("foo", NumberLiteral(42), {Static})) == "var foo = 42;"
  {
    assert NatToString(4) == "4";
    assert NatToString(42) == NatToString(4) + [DigitChar(2)];
    assert IntToString(42) == "42";
  }

  /** Printing a boolean declaration: `var bar = true;`. */
  lemma PrintBooleanExample()
    ensures PrintStatement(DeclareVarStmt("bar", BooleanLiteral(true), {})) == "var bar = true;"
  {
  }

  /** A string with no character that needs escaping is written as it
      is. */
  lemma {:induction false} EscapePlain(s: string)
    requires forall i :: 0 <= i < |s| ==> s[i] != '\\' && s[i] != '"' && s[i] != '\n'
    ensures Escape(s) == s
  {
    if |s| > 0 {
      EscapePlain(s[1..]);
      assert [s[0]] + s[1..] == s;
    }
  }

  lemma StringExampleSpelling(printed: string)
    requires printed == "var baz = \"qux\";"
    ensures printed == "var " + "baz" + " = " + ("\"" + "qux" + "\"") + ";"
  {
  }

  /** Printing a string declaration: `var baz = "qux";`. */
  lemma PrintStringExample(printed: string)
    requires printed == "var baz = \"qux\";"
    ensures PrintStatement(DeclareVarStmt("baz", StringLiteral("qux"), {})) == printed
  {
    EscapePlain("qux");
    StringExampleSpelling(printed);
  }
}

=== FILE: text.dfy ===
/** String helpers shared by the model: concatenation, joining with a
    separator, splitting on a character, character replacement and
    substring search. */
module Text {

  /** The concatenation of all parts, in order. */
  function Concat(parts: seq<string>): string
  {
    if |parts| == 0 then "" else parts[0] + Concat(parts[1..])
  }

  /** The parts separated by `sep` (nothing before the first or after the last). */
  function Join(parts: seq<string>, sep: string): string
  {
    if |parts| == 0 then ""
    else if |parts| == 1 then parts[0]
    else parts[0] + sep + Join(parts[1..], sep)
  }

  /** `s` with every occurrence of `from` replaced by `to`. */
  function ReplaceChar(s: string, from: char, to: char): (r: string)
    ensures |r| == |s|
  {
    seq(|s|, i requires 0 <= i < |s| => if s[i] == from then to else s[i])
  }

  lemma ReplaceCharCons(s: string, from: char, to: char)
    requires |s| > 0
    ensures ReplaceChar(s, from, to) == [if s[0] == from then to else s[0]] + ReplaceChar(s[1..], from, to)
  {
  }

  /** `s` cut at every occurrence of `c`; there is always at least one piece. */
  function Split(s: string, c: char): (r: seq<string>)
    ensures |r| > 0
    ensures forall i :: 0 <= i < |r| ==> c !in r[i]
  {
    if |s| == 0 then [""]
    else
      var rest := Split(s[1..], c);
      if s[0] == c then [""] + rest else [[s[0]] + rest[0]] + rest[1..]
  }

  predicate StartsWith(s: string, prefix: string)
  {
    |prefix| <= |s| && s[..|prefix|] == prefix
  }

  /** `needle` occurs in `hay` starting at offset `i`. */
  predicate OccursAt(hay: string, needle: string, i: int)
  {
    0 <= i <= |hay| - |needle| && hay[i..i + |needle|] == needle
  }

  /** `needle` occurs somewhere in `hay`. */
  ghost predicate Contains(hay: string, needle: string)
  {
    exists i :: OccursAt(hay, needle, i)
  }

  /** Whatever is glued around a text, the text still occurs in the result. */
  lemma ContainsPart(pre: string, needle: string, post: string)
    ensures Contains(pre + needle + post, needle)
  {
    assert (pre + needle + post)[|pre|..|pre| + |needle|] == needle;
    assert OccursAt(pre + needle + post, needle, |pre|);
  }

  lemma ReplaceCharAppend(a: string, b: string, from: char, to: char)
    ensures ReplaceChar(a + b, from, to) == ReplaceChar(a, from, to) + ReplaceChar(b, from, to)
  {
  }

  lemma ReplaceCharAbsent(s: string, from: char, to: char)
    requires from !in s
    ensures ReplaceChar(s, from, to) == s
  {
  }

  lemma ConcatAppend(a: seq<string>, b: seq<string>)
    ensures Concat(a + b) == Concat(a) + Concat(b)
  {
    if |a| > 0 {
      assert (a + b)[1..] == a[1..] + b;
      ConcatAppend(a[1..], b);
    } else {
      assert a + b == b;
    }
  }

  lemma ConcatSingle(s: string)
    ensures Concat([s]) == s
  {
    assert [s][1..] == [];
  }

  /** Joining two non-empty lists puts exactly one separator between them. */
  lemma {:induction false} JoinAppend(a: seq<string>, b: seq<string>, sep: string)
    requires |a| > 0 && |b| > 0
    ensures Join(a + b, sep) == Join(a, sep) + sep + Join(b, sep)
  {
    if |a| == 1 {
      assert (a + b)[0] == a[0];
      assert (a + b)[1..] == b;
    } else {
      assert (a + b)[0] == a[0];
      assert (a + b)[1..] == a[1..] + b;
      JoinAppend(a[1..], b, sep);
    }
  }

  lemma JoinCons(x: string, rest: seq<string>, sep: string)
    requires |rest| > 0
    ensures Join([x] + rest, sep) == x + sep + Join(rest, sep)
  {
    assert ([x] + rest)[1..] == rest;
  }

  /** Splitting and re-joining with the same character gives back the text. */
  lemma {:induction false} SplitJoin(s: string, c: char)
    ensures Join(Split(s, c), [c]) == s
  {
    if |s| > 0 {
      var rest := Split(s[1..], c);
      SplitJoin(s[1..], c);
      if s[0] == c {
        JoinCons("", rest, [c]);
        assert s == [c] + s[1..];
      } else if |rest| == 1 {
        assert Split(s, c) == [[s[0]] + rest[0]];
        assert s == [s[0]] + s[1..];
      } else {
        JoinCons([s[0]] + rest[0], rest[1..], [c]);
        JoinCons(rest[0], rest[1..], [c]);
        assert rest == [rest[0]] + rest[1..];
        assert s == [s[0]] + s[1..];
      }
    }
  }

  /** Replacing a character is the same as splitting on it and joining with
      the replacement. */
  lemma {:induction false} ReplaceIsSplitJoin(s: string, from: char, to: char)
    ensures ReplaceChar(s, from, to) == Join(Split(s, from), [to])
  {
    if |s| > 0 {
      var rest := Split(s[1..], from);
      ReplaceCharCons(s, from, to);
      ReplaceIsSplitJoin(s[1..], from, to);
      if s[0] == from {
        JoinCons("", rest, [to]);
      } else if |rest| == 1 {
        assert Split(s, from) == [[s[0]] + rest[0]];
      } else {
        JoinCons([s[0]] + rest[0], rest[1..], [to]);
        JoinCons(rest[0], rest[1..], [to]);
        assert rest == [rest[0]] + rest[1..];
      }
    }
  }

  /** Splitting on a separator that occurs between two texts splits each
      text on its own. */
  lemma {:induction false} SplitAround(a: string, b: string, c: char)
    ensures Split(a + [c] + b, c) == Split(a, c) + Split(b, c)
  {
    if |a| == 0 {
      assert a + [c] + b == [c] + b;
      assert ([c] + b)[1..] == b;
    } else {
      var t := a + [c] + b;
      assert t[0] == a[0];
      assert t[1..] == a[1..] + [c] + b;
      SplitAround(a[1..], b, c);
    }
  }

  /** A text without the separator is a single piece. */
  lemma {:induction false} SplitAbsent(s: string, c: char)
    requires c !in s
    ensures Split(s, c) == [s]
  {
    if |s| > 0 {
      assert c !in s[1..];
      SplitAbsent(s[1..], c);
      assert [s[0]] + s[1..] == s;
    }
  }

  // Regroupings of string concatenations, each in the exact bracketing a
  // proof about the module text meets.

  /** Re-brackets a text cut into six pieces. */
  lemma RegroupCut(p: string, o: string, a: string, b: string, c: string, q: string)
    ensures p + (o + (a + b) + c) + q == (p + o + a) + (b + c + q)
  {
  }

  lemma Assoc(p: string, a: string, b: string, q: string)
    ensures p + (a + b) + q == p + a + b + q
  {
  }

  lemma RegroupInserted(p: string, o: string, a: string, t: string, b: string, c: string, q: string)
    ensures p + (o + (a + t + b) + c) + q == (p + o + a) + t + (b + c + q)
  {
  }

  lemma Tack(x: string, a: string, n: string, t: string)
    ensures x + (a + (n + t)) == x + a + n + t
  {
  }

  lemma Bracket(h: string, e: string, x: string, f: string, c: string)
    ensures h + (e + x + f) + c == h + e + x + f + c
    ensures h + (e + f) + c == h + e + f + c
  {
  }

  lemma AssocThree(e: string, x: string, f: string)
    ensures e + (x + f) == e + x + f
  {
  }

  lemma RegroupEntry(p: string, l: string, h: string, e: string, x: string, f: string, c: string, q: string)
    ensures p + (l + (h + e + x + f + c)) + q == (p + l + h + e) + x + (f + c + q)
    ensures p + (l + (h + e + f + c)) + q == (p + l + h + e) + (f + c + q)
  {
  }

  lemma RegroupMiddle(w: string, x: string, e: string, y: string, t: string)
    ensures w + (x + e + y) + t == (w + x) + e + (y + t)
  {
  }

  lemma Spread(p: string, k: string, c: string, q: string)
    ensures p + (k + "\n" + c + "\n") + q == p + k + "\n" + c + "\n" + q
  {
  }

  lemma AssocLeft(p: string, a: string, b: string)
    ensures p + a + b == p + (a + b)
  {
  }

  lemma AssocFive(y: string, a: string, b: string, c: string, d: string)
    ensures y + a + b + c + d == y + (a + b + c + d)
  {
  }

  lemma Centre(pre: string, x: string, c: string, y: string, post: string)
    ensures (pre + x) + "" + "\n" + c + "\n" + (y + post) == pre + (x + "\n" + c + "\n" + y) + post
  {
  }

  lemma Glue(o: string, a: string, c: string, sep: string, b: string)
    ensures o + a + c + sep + (o + b + c) == o + a + (c + sep + o) + b + c
  {
  }

  lemma RegroupAround(p: string, a: string, l: string, c: string, r: string, e: string, w: string, z: string)
    ensures p + (a + l + c + r) + e + w + z == (p + a + l) + c + (r + e + w + z)
  {
  }

  lemma RegroupFirst(x: string, c: string, r: string, e: string, w: string, z: string)
    ensures x + c + r + e + w + z == x + c + (r + e + w + z)
  {
  }
}

=== FILE: umd_imports.dfy ===
/** `addImports`: every new import is added in front of the existing
    dependencies of every loader branch, in that branch's own form, and its
    qualifier is added in front of the factory's parameters. */
module UmdImports {
  import opened Outcomes
  import opened Text
  import opened GlobalNames
  import opened UmdModel

  /** An import to add: the module `specifier` is bound to the factory
      parameter `qualifier`. */
  datatype Import = Import(specifier: string, qualifier: string)

  /** How a loader branch names a dependency. */
  function DependencyText(loader: Loader, specifier: string): (r: string)
    ensures loader == CommonJs2 || loader == CommonJs ==> r == "require('" + specifier + "')"
    ensures loader == Amd ==> r == "'" + specifier + "'"
    ensures loader == Global ==> r == GlobalAccess(specifier)
  {
    match loader
    case CommonJs2 => "require('" + specifier + "')"
    case CommonJs => "require('" + specifier + "')"
    case Amd => "'" + specifier + "'"
    case Global => GlobalAccess(specifier)
  }

  /** The quotes a CommonJS or AMD branch wraps a specifier in. */
  function SpecifierQuotes(loader: Loader): (string, string)
  {
    if loader == Amd then ("'", "'") else ("require('", "')")
  }

  /** Reads the module specifier back out of a CommonJS or AMD dependency;
      the global branch names a path, not a specifier. */
  function ReadSpecifier(loader: Loader, t: string): Option<string>
  {
    var (open, close) := SpecifierQuotes(loader);
    if loader == Global || |t| < |open| + |close| then None
    else if t[..|open|] != open || t[|t| - |close|..] != close then None
    else Some(t[|open|..|t| - |close|])
  }

  /** The CommonJS and AMD forms name the module exactly: the specifier can
      be read back from them. */
  lemma ReadDependencyText(loader: Loader, specifier: string)
    requires loader != Global
    ensures ReadSpecifier(loader, DependencyText(loader, specifier)) == Some(specifier)
  {
    var (open, close) := SpecifierQuotes(loader);
    var t := DependencyText(loader, specifier);
    assert t == open + specifier + close;
    assert t[..|open|] == open;
    assert t[|t| - |close|..] == close;
    assert t[|open|..|t| - |close|] == specifier;
  }

  /** The new entries of a loader branch, one per import, in order. */
  function DependencyTexts(loader: Loader, imports: seq<Import>): (r: seq<string>)
    ensures |r| == |imports|
    ensures forall i :: 0 <= i < |imports| ==> r[i] == DependencyText(loader, imports[i].specifier)
  {
    seq(|imports|, i requires 0 <= i < |imports| => DependencyText(loader, imports[i].specifier))
  }

  /** The new factory parameters, one per import, in order. */
  function Qualifiers(imports: seq<Import>): (r: seq<string>)
    ensures |r| == |imports|
    ensures forall i :: 0 <= i < |imports| ==> r[i] == imports[i].qualifier
  {
    seq(|imports|, i requires 0 <= i < |imports| => imports[i].qualifier)
  }

  /** Inserts `texts` in front of the first original entry: joined by commas,
      and followed by one more comma only when there is an entry to
      separate them from. */
  function PrependTo(l: DepList, texts: seq<string>): (r: DepList)
    ensures r.entries == l.entries
    ensures StartsWith(r.inserted, l.inserted)
  {
    DepList(l.inserted + Join(texts, ",") + (if |l.entries| > 0 then "," else ""), l.entries)
  }

  /** The AMD dependency array written where a `define` call had none: the
      new entries in brackets, then the comma that separates the array from
      the factory argument. */
  function NewAmdArray(imports: seq<Import>): (r: string)
    ensures |r| >= 3 && r[0] == '[' && r[|r| - 2..] == "],"
  {
    var r := "[" + Join(DependencyTexts(Amd, imports), ",") + "],";
    assert r[|r| - 2..] == "],";
    r
  }

  function PrependToPart(p: Part, imports: seq<Import>): (r: Part)
    ensures r.Verbatim? <==> p.Verbatim?
    ensures r.Verbatim? ==> r == p
    ensures r.Deps? <==> p.Deps?
    ensures r.Deps? ==> r.loader == p.loader && r.list.entries == p.list.entries
    ensures r.NoAmdArray? <==> p.NoAmdArray?
    ensures r.NoAmdArray? ==> StartsWith(r.inserted, p.inserted)
  {
    match p
    case Verbatim(_) => p
    case Deps(loader, list) => Deps(loader, PrependTo(list, DependencyTexts(loader, imports)))
    case NoAmdArray(inserted) =>
      var r := NoAmdArray(inserted + NewAmdArray(imports));
      assert r.inserted[..|inserted|] == inserted;
      r
  }

  /** `addImports`. An empty import list leaves the module untouched;
      otherwise every dependency list and the parameter list receive the new
      entries, and nothing else changes. */
  function AddImports(m: UmdModule, imports: seq<Import>): (r: UmdModule)
    ensures |imports| == 0 ==> r == m
    ensures r.path == m.path && r.afterParams == m.afterParams
    ensures r.body == m.body && r.tail == m.tail
    ensures r.params.entries == m.params.entries
    ensures |r.wrapper| == |m.wrapper|
    ensures |imports| > 0 ==>
      forall i :: 0 <= i < |m.wrapper| ==> r.wrapper[i] == PrependToPart(m.wrapper[i], imports)
    ensures |imports| > 0 ==>
      RenderList(r.params) == RenderList(WithLeadingEntries(m.params, Qualifiers(imports)))
  {
    if |imports| == 0 then m
    else
      PrependPrintsAsLeadingEntries(m.params, Qualifiers(imports));
      m.(wrapper := seq(|m.wrapper|, i requires 0 <= i < |m.wrapper| => PrependToPart(m.wrapper[i], imports)),
         params := PrependTo(m.params, Qualifiers(imports)))
  }

  /** The reference reading of `addImports`: the new entries become the
      first entries of every list. */
  function WithLeadingEntries(l: DepList, texts: seq<string>): DepList
  {
    DepList(l.inserted, texts + l.entries)
  }

  /** A `define` call without an array is read as gaining a list that
      holds just the new entries, in brackets, before the factory argument. */
  function WithLeadingDependencies(p: Part, imports: seq<Import>): Part
  {
    match p
    case Verbatim(_) => p
    case Deps(loader, list) => Deps(loader, WithLeadingEntries(list, DependencyTexts(loader, imports)))
    case NoAmdArray(inserted) =>
      Verbatim(inserted + "[" + RenderList(WithLeadingEntries(DepList("", []), DependencyTexts(Amd, imports))) + "],")
  }

  function PrependedReference(m: UmdModule, imports: seq<Import>): UmdModule
  {
    m.(wrapper := seq(|m.wrapper|, i requires 0 <= i < |m.wrapper| => WithLeadingDependencies(m.wrapper[i], imports)),
       params := WithLeadingEntries(m.params, Qualifiers(imports)))
  }

  /** Inserting in front of the first entry prints exactly like having the
      new entries first: the separator goes only between entries. */
  lemma PrependPrintsAsLeadingEntries(l: DepList, texts: seq<string>)
    requires |texts| > 0
    ensures RenderList(PrependTo(l, texts)) == RenderList(WithLeadingEntries(l, texts))
  {
    if |l.entries| > 0 {
      JoinAppend(texts, l.entries, ",");
    } else {
      assert texts + l.entries == texts;
    }
  }

  /** Why the empty import list must be special-cased: inserting no
      entries in front of a non-empty list would still leave a stray comma. */
  lemma EmptyInsertionWouldAddComma(l: DepList)
    requires |l.entries| > 0
    ensures RenderList(PrependTo(l, [])) == l.inserted + "," + Join(l.entries, ",")
    ensures RenderList(PrependTo(l, [])) != RenderList(l)
  {
    var a := RenderList(PrependTo(l, []));
    assert |a| == |RenderList(l)| + 1;
  }

  /** On an empty list the new entries are the whole list, with no comma
      before or after them. */
  lemma PrependToEmpty(texts: seq<string>)
    ensures RenderList(PrependTo(DepList("", []), texts)) == Join(texts, ",")
  {
  }

  /** Every part of the wrapper prints as its reference reading: existing
      lists with the new entries first, a missing AMD array as an array of
      just the new entries. */
  lemma PrependToPartPrintsAsLeading(p: Part, imports: seq<Import>)
    requires |imports| > 0
    ensures RenderPart(PrependToPart(p, imports)) == RenderPart(WithLeadingDependencies(p, imports))
  {
    match p
    case Verbatim(_) =>
    case Deps(loader, list) =>
      PrependPrintsAsLeadingEntries(list, DependencyTexts(loader, imports));
    case NoAmdArray(inserted) =>
      assert DependencyTexts(Amd, imports) + [] == DependencyTexts(Amd, imports);
  }

  /** The whole module prints as if every list had the new entries first,
      in the given order, followed by the original entries. */
  lemma AddImportsPrintsAsPrepended(m: UmdModule, imports: seq<Import>)
    requires |imports| > 0
    ensures Render(AddImports(m, imports)) == Render(PrependedReference(m, imports))
  {
    var r := AddImports(m, imports);
    var ref := PrependedReference(m, imports);
    forall i | 0 <= i < |m.wrapper|
      ensures RenderPart(r.wrapper[i]) == RenderPart(ref.wrapper[i])
    {
      PrependToPartPrintsAsLeading(m.wrapper[i], imports);
    }
    RenderPartsPointwise(r.wrapper, ref.wrapper);
    PrependPrintsAsLeadingEntries(m.params, Qualifiers(imports));
  }

  /** A `define` call with no dependency array gets a whole new array in
      front of its factory argument: `define('file', factory)` becomes
      `define('file',['a','b'], factory)`. */
  lemma AmdTwoImportsWithoutArray(a: Import, b: Import)
    ensures RenderPart(PrependToPart(NoAmdArray(""), [a, b]))
      == "['" + a.specifier + "','" + b.specifier + "'],"
  {
    var x := "'" + a.specifier + "'";
    var y := "'" + b.specifier + "'";
    assert DependencyTexts(Amd, [a, b]) == [x, y];
    assert Join([x, y], ",") == x + "," + y by {
      JoinCons(x, [y], ",");
      assert [x] + [y] == [x, y];
    }
    QuoteSeparator(a.specifier, b.specifier);
  }

  /** The two quoted AMD entries, bracketed, spelled as one literal. */
  lemma QuoteSeparator(u: string, v: string)
    ensures "" + ("[" + ("'" + u + "'" + "," + ("'" + v + "'")) + "],") == "['" + u + "','" + v + "'],"
  {
    assert "'" + "," + "'" == "','";
  }

  /** Two new entries in front of an untouched list. */
  lemma TwoInFront(list: DepList, x: string, y: string)
    requires FreshList(list)
    ensures RenderList(PrependTo(list, [x, y]))
      == x + "," + y + (if |list.entries| > 0 then "," + Join(list.entries, ",") else "")
  {
    assert Join([x, y], ",") == x + "," + y by {
      JoinCons(x, [y], ",");
      assert [x] + [y] == [x, y];
    }
  }

  /** The text between two `require` entries, spelled as one literal. */
  lemma RequireSeparator()
    ensures "')" + "," + "require('" == "'),require('"
  {
  }

  /** Two imports in front of a CommonJS factory call's arguments. */
  lemma CommonJsTwoImports(list: DepList, a: Import, b: Import)
    requires FreshList(list)
    ensures RenderList(PrependTo(list, DependencyTexts(CommonJs2, [a, b])))
      == "require('" + a.specifier + "'),require('" + b.specifier + "')"
         + (if |list.entries| > 0 then "," + Join(list.entries, ",") else "")
  {
    var x := "require('" + a.specifier + "')";
    var y := "require('" + b.specifier + "')";
    assert DependencyTexts(CommonJs2, [a, b]) == [x, y];
    TwoInFront(list, x, y);
    Glue("require('", a.specifier, "')", ",", b.specifier);
    RequireSeparator();
  }

  /** Two imports in front of the factory parameters. */
  lemma ParamsTwoImports(list: DepList, a: Import, b: Import)
    requires FreshList(list)
    ensures RenderList(PrependTo(list, Qualifiers([a, b])))
      == a.qualifier + "," + b.qualifier
         + (if |list.entries| > 0 then "," + Join(list.entries, ",") else "")
  {
    assert Qualifiers([a, b]) == [a.qualifier, b.qualifier];
    TwoInFront(list, a.qualifier, b.qualifier);
  }

  /** The text between two `global.` entries, spelled as one literal. */
  lemma GlobalSeparator(x: string, y: string)
    ensures "global." + x + "," + ("global." + y) == "global." + x + ",global." + y
  {
    assert "," + "global." == ",global.";
  }

  /** The global branch names the new dependencies through the global
      namespace, whatever form its old entries take. */
  lemma GlobalTwoImports(list: DepList, a: Import, b: Import)
    requires FreshList(list)
    ensures RenderList(PrependTo(list, DependencyTexts(Global, [a, b])))
      == "global." + GlobalIdentifier(a.specifier) + ",global." + GlobalIdentifier(b.specifier)
         + (if |list.entries| > 0 then "," + Join(list.entries, ",") else "")
  {
    var x := GlobalAccess(a.specifier);
    var y := GlobalAccess(b.specifier);
    assert DependencyTexts(Global, [a, b]) == [x, y];
    TwoInFront(list, x, y);
    GlobalSeparator(GlobalIdentifier(a.specifier), GlobalIdentifier(b.specifier));
  }
}

=== FILE: umd_module.dfy ===
/** An already-parsed UMD module, as the formatter sees it, and its text.

    The module is kept as the original text cut at the places the formatter
    edits, plus the edits made so far: text inserted at a position is held in
    a slot next to that position, and removed decorator entries are
    remembered in a set. `Render` puts the text back together, the way the
    edited text buffer prints it. */
module UmdModel {
  import opened Text

  /** The loader branches of a UMD wrapper that call the factory. */
  datatype Loader =
    | CommonJs2   // `module.exports = factory(require('x'), ...)`
    | CommonJs    // `exports['name'] = factory(require('x'), ...)`
    | Amd         // `define([..., 'x'], factory)`
    | Global      // `root['name'] = factory(...)` or `factory(global.x, ...)`

  /** A comma-separated list of the wrapper: the arguments of a factory
      call, the AMD dependency array or the factory's parameters. `entries`
      are the original entries, each with the whitespace before it;
      `inserted` is the text added in front of the first entry. */
  datatype DepList = DepList(inserted: string, entries: seq<string>)

  function RenderList(l: DepList): string
  {
    l.inserted + Join(l.entries, ",")
  }

  /** The wrapper text up to the factory's parameter list: plain text and
      the dependency list of every loader branch present. `NoAmdArray` is an
      AMD `define` call that has no dependency array at all
      (`define('name', factory)`): the point in front of its factory
      argument, with the text inserted there. */
  datatype Part =
    | Verbatim(text: string)
    | Deps(loader: Loader, list: DepList)
    | NoAmdArray(inserted: string)

  function RenderPart(p: Part): string
  {
    match p
    case Verbatim(text) => text
    case Deps(_, list) => RenderList(list)
    case NoAmdArray(inserted) => inserted
  }

  function RenderParts(parts: seq<Part>): string
  {
    if |parts| == 0 then "" else RenderPart(parts[0]) + RenderParts(parts[1..])
  }

  /** One decorator of a decorator array, with the whitespace before it. */
  datatype Entry = Entry(lead: string, text: string)

  /** A decorator array: `X.decorators = [...];` or
      `X = tslib.__decorate([...], X);`. `head` runs up to and including the
      opening bracket and `close` from the end of the last entry (or of its
      trailing comma) to the end of the statement. `removed` holds the
      positions of the entries cut out so far; `dropped` says that the whole
      statement was cut out. */
  datatype Container = Container(
    head: string,
    entries: seq<Entry>,
    trailingComma: bool,
    close: string,
    removed: set<nat>,
    dropped: bool)

  /** The text an entry occupies: itself and the comma that follows it. */
  function EntrySpan(c: Container, i: nat): string
    requires i < |c.entries|
  {
    c.entries[i].lead + c.entries[i].text
      + (if i + 1 < |c.entries| || c.trailingComma then "," else "")
  }

  /** The entries from position `i` on, leaving out the removed ones. */
  function RenderEntriesFrom(c: Container, i: nat): string
    requires i <= |c.entries|
    decreases |c.entries| - i
  {
    if i == |c.entries| then ""
    else (if i in c.removed then "" else EntrySpan(c, i)) + RenderEntriesFrom(c, i + 1)
  }

  function RenderContainer(c: Container): string
  {
    c.head + RenderEntriesFrom(c, 0) + c.close
  }

  /** A statement of a class IIFE's body. `Inserted` is text added by the
      formatter. */
  datatype Inner =
    | Code(lead: string, text: string)
    | Return(lead: string, text: string)
    | Decorators(lead: string, container: Container)
    | Inserted(text: string)

  function RenderInner(s: Inner): string
  {
    match s
    case Code(lead, text) => lead + text
    case Return(lead, text) => lead + text
    case Decorators(lead, c) => if c.dropped then "" else lead + RenderContainer(c)
    case Inserted(text) => text
  }

  function RenderInners(s: seq<Inner>): string
  {
    if |s| == 0 then "" else RenderInner(s[0]) + RenderInners(s[1..])
  }

  /** How a class is declared: as an ES5 IIFE `(function () { ... }())`
      around its body, or any other way (`text` is the declaration). */
  datatype ClassShape =
    | NotIife(text: string)
    | Iife(open: string, inner: seq<Inner>, close: string)

  /** A top-level statement of the factory body. */
  datatype Stmt =
    | Plain(lead: string, text: string)
    | ClassDecl(lead: string, name: string, shape: ClassShape)

  function Lead(s: Stmt): string
  {
    s.lead
  }

  /** A statement without the whitespace before it. */
  function Core(s: Stmt): string
  {
    match s
    case Plain(_, text) => text
    case ClassDecl(_, _, NotIife(text)) => text
    case ClassDecl(_, _, Iife(open, inner, close)) => open + RenderInners(inner) + close
  }

  function RenderStmts(s: seq<Stmt>): string
  {
    if |s| == 0 then "" else Lead(s[0]) + Core(s[0]) + RenderStmts(s[1..])
  }

  /** The body of the factory function, between its braces. `closing` is the
      whitespace after the last statement. `constants` is the text added in
      front of the first statement and `exports` the text added after the
      last one. */
  datatype Body = Body(stmts: seq<Stmt>, closing: string, constants: string, exports: string)

  function RenderBody(b: Body): string
  {
    if |b.stmts| == 0 then
      "{" + b.constants + b.closing + b.exports + "}"
    else
      "{" + Lead(b.stmts[0]) + b.constants + Core(b.stmts[0])
        + RenderStmts(b.stmts[1..]) + b.exports + b.closing + "}"
  }

  /** A UMD module: the wrapper up to the factory's parameters, the
      parameters, the text up to the factory body, the body, and the rest of
      the file. `path` is the file's name, used in error messages. */
  datatype UmdModule = UmdModule(
    path: string,
    wrapper: seq<Part>,
    params: DepList,
    afterParams: string,
    body: Body,
    tail: string)

  function Render(m: UmdModule): string
  {
    RenderParts(m.wrapper) + RenderList(m.params) + m.afterParams + RenderBody(m.body) + m.tail
  }

  /** Nothing has been inserted into the list yet. */
  predicate FreshList(l: DepList)
  {
    l.inserted == ""
  }

  /** The class declared by the `k`-th statement of the body. */
  predicate IsClassAt(m: UmdModule, k: nat)
  {
    k < |m.body.stmts| && m.body.stmts[k].ClassDecl?
  }

  lemma {:induction false} RenderPartsAppend(a: seq<Part>, b: seq<Part>)
    ensures RenderParts(a + b) == RenderParts(a) + RenderParts(b)
  {
    if |a| > 0 {
      assert (a + b)[1..] == a[1..] + b;
      RenderPartsAppend(a[1..], b);
    } else {
      assert a + b == b;
    }
  }

  lemma {:induction false} RenderInnersAppend(a: seq<Inner>, b: seq<Inner>)
    ensures RenderInners(a + b) == RenderInners(a) + RenderInners(b)
  {
    if |a| > 0 {
      assert (a + b)[1..] == a[1..] + b;
      RenderInnersAppend(a[1..], b);
    } else {
      assert a + b == b;
    }
  }

  lemma {:induction false} RenderStmtsAppend(a: seq<Stmt>, b: seq<Stmt>)
    ensures RenderStmts(a + b) == RenderStmts(a) + RenderStmts(b)
  {
    if |a| > 0 {
      assert (a + b)[1..] == a[1..] + b;
      RenderStmtsAppend(a[1..], b);
    } else {
      assert a + b == b;
    }
  }

  /** Parts that print alike print alike in sequence. */
  lemma {:induction false} RenderPartsPointwise(a: seq<Part>, b: seq<Part>)
    requires |a| == |b|
    requires forall i :: 0 <= i < |a| ==> RenderPart(a[i]) == RenderPart(b[i])
    ensures RenderParts(a) == RenderParts(b)
  {
    if |a| > 0 {
      RenderPartsPointwise(a[1..], b[1..]);
    }
  }

  /** Statements that print alike print alike in sequence. */
  lemma {:induction false} RenderStmtsPointwise(a: seq<Stmt>, b: seq<Stmt>)
    requires |a| == |b|
    requires forall i :: 0 <= i < |a| ==> Lead(a[i]) == Lead(b[i]) && Core(a[i]) == Core(b[i])
    ensures RenderStmts(a) == RenderStmts(b)
  {
    if |a| > 0 {
      RenderStmtsPointwise(a[1..], b[1..]);
    }
  }

  /** The body's text before the `k`-th statement's core. */
  function BodyBefore(b: Body, k: nat): string
    requires k < |b.stmts|
  {
    if k == 0 then "{" + Lead(b.stmts[0]) + b.constants
    else "{" + Lead(b.stmts[0]) + b.constants + Core(b.stmts[0]) + RenderStmts(b.stmts[1..k]) + Lead(b.stmts[k])
  }

  /** The body's text after the `k`-th statement. */
  function BodyAfter(b: Body, k: nat): string
    requires k < |b.stmts|
  {
    RenderStmts(b.stmts[k + 1..]) + b.exports + b.closing + "}"
  }

  lemma BodyAroundStmt(b: Body, k: nat)
    requires k < |b.stmts|
    ensures RenderBody(b) == BodyBefore(b, k) + Core(b.stmts[k]) + BodyAfter(b, k)
  {
    var s := b.stmts;
    if k > 0 {
      StmtsAround(s, k);
      var p := "{" + Lead(s[0]) + b.constants + Core(s[0]);
      RegroupAround(p, RenderStmts(s[1..k]), Lead(s[k]), Core(s[k]), RenderStmts(s[k + 1..]),
                    b.exports, b.closing, "}");
    } else {
      assert s[1..] == s[k + 1..];
      RegroupFirst("{" + Lead(s[0]) + b.constants, Core(s[0]), RenderStmts(s[1..]), b.exports, b.closing, "}");
    }
  }

  /** The statements after the first, cut at the `k`-th. */
  lemma StmtsAround(s: seq<Stmt>, k: nat)
    requires 0 < k < |s|
    ensures RenderStmts(s[1..]) == RenderStmts(s[1..k]) + Lead(s[k]) + Core(s[k]) + RenderStmts(s[k + 1..])
  {
    assert s[1..] == s[1..k] + s[k..];
    RenderStmtsAppend(s[1..k], s[k..]);
    assert s[k..][1..] == s[k + 1..];
  }

  /** Replacing one statement by another with the same leading whitespace
      leaves the text around it alone. */
  lemma BodyAroundReplaced(b: Body, k: nat, s: Stmt)
    requires k < |b.stmts| && Lead(s) == Lead(b.stmts[k])
    ensures BodyBefore(b.(stmts := b.stmts[k := s]), k) == BodyBefore(b, k)
    ensures BodyAfter(b.(stmts := b.stmts[k := s]), k) == BodyAfter(b, k)
  {
    var t := b.stmts[k := s];
    assert k > 0 ==> t[1..k] == b.stmts[1..k] && t[0] == b.stmts[0];
    assert t[k + 1..] == b.stmts[k + 1..];
  }

  /** The module's text before the `k`-th body statement's core. */
  function ModuleBefore(m: UmdModule, k: nat): string
    requires k < |m.body.stmts|
  {
    RenderParts(m.wrapper) + RenderList(m.params) + m.afterParams + BodyBefore(m.body, k)
  }

  /** The module's text after the `k`-th body statement. */
  function ModuleAfter(m: UmdModule, k: nat): string
    requires k < |m.body.stmts|
  {
    BodyAfter(m.body, k) + m.tail
  }

  lemma ModuleAroundStmt(m: UmdModule, k: nat)
    requires k < |m.body.stmts|
    ensures Render(m) == ModuleBefore(m, k) + Core(m.body.stmts[k]) + ModuleAfter(m, k)
  {
    var w := RenderParts(m.wrapper) + RenderList(m.params) + m.afterParams;
    BodyAroundStmt(m.body, k);
    assert Render(m) == w + RenderBody(m.body) + m.tail;
  }

  /** Replacing the `k`-th statement by one with the same leading whitespace
      changes the module's text only where that statement's core was. */
  lemma ModuleAroundReplaced(m: UmdModule, k: nat, s: Stmt)
    requires k < |m.body.stmts| && Lead(s) == Lead(m.body.stmts[k])
    ensures var r := m.(body := m.body.(stmts := m.body.stmts[k := s]));
            Render(r) == ModuleBefore(m, k) + Core(s) + ModuleAfter(m, k)
  {
    var r := m.(body := m.body.(stmts := m.body.stmts[k := s]));
    BodyAroundReplaced(m.body, k, s);
    assert r.body == m.body.(stmts := m.body.stmts[k := s]);
    assert ModuleBefore(r, k) == ModuleBefore(m, k);
    assert ModuleAfter(r, k) == ModuleAfter(m, k);
    ModuleAroundStmt(r, k);
  }
}
